=== FILE: README.md ===
# Accounts-payable fact table, modelled in Dafny

This project models the data-cleaning notebook of the accounts-payable
analytics workspace. The notebook turns three raw SAP extracts into a typed
fact table and two summary views. The extracts are BSEG (line items), BKPF
(document headers) and LFA1 (vendor master), and every column in them is a
nullable string.

- **Stage 1, `accounts_payable_staging`**:
  - joins each line item of account type 'K' or 'S' to its header on the
    four-part document key;
  - left-joins it to the vendor master on client and raw vendor number;
  - casts the date columns to DATE, the amounts to DECIMAL(15,2), and the
    fiscal year and day counts to INT;
  - turns blank text into NULL only in the raw vendor number, the payment
    terms and the nine vendor-master columns; every other text column,
    the keys included, is copied unchanged, so a blank line-item text stays
    `''`.
- **Stage 2, `accounts_payable_fact`**: derives, per row:
  - the signed amount and the vendor liability;
  - the document type description;
  - the due dates;
  - the quality flags.
- **Views**:
  - `ap_data_quality_summary` aggregates the fact table into one row;
  - `ap_vendor_summary` aggregates it per vendor.

## How the model works

- **Tables and values.** A table is a sequence of rows, and every stage is a
  pure function of its input tables. SQL NULL is `Sql.Option.None`.
- **Amounts** are whole cents. DECIMAL(15,2) means fewer than 10^15 cents
  either way.
- **Dates** count days in the proleptic Gregorian calendar.
- **Parameters.** Two things the notebook takes from the engine come in as
  parameters:
  - `general` is Spark's general string-to-DATE parser. It is used for texts
    that are not `yyyy-mm-dd`.
  - `ts` is the value of `CURRENT_TIMESTAMP()`.

| module | file | models |
|---|---|---|
| `Sql` | sql.dfy | NULL, `TRIM`, `CASE WHEN TRIM(x) = '' THEN NULL ELSE x END`, the `=` of a join condition |
| `Sequences` | sequences.dfy | selection and counting over a table |
| `Numerals` | numerals.dfy | `TRY_CAST` of a string to INT and to DECIMAL(15,2), with canonical renderings |
| `Calendar` | calendar.dfy | the DATE type and the day `DATEADD(day, n, d)` falls on |
| `Casting` | casting.dfy | the per-column cast expressions of Stage 1 |
| `Staging` | staging.dfy | the raw rows, the join, and `accounts_payable_staging` |
| `Fact` | fact.dfy | the calculated columns and `accounts_payable_fact` |
| `Aggregates` | aggregates.dfy | `SUM`, `MIN`, `MAX` and `COUNT(DISTINCT ...)` |
| `Views` | views.dfy | the two views |
| `Pipeline` | pipeline.dfy | the quality summary computed straight from the raw extracts |

### Behaviour modelled exactly as written

- **The date regrouping looks at two different strings.** The length test uses
  the trimmed value, but the substrings come from the untrimmed one. So
  `" 20240115"` reaches the DATE cast as `" 202-40-11"`, not `2024-01-15`. This
  is `Casting.LeadingSpaceShiftsDate`.
- **The two due dates are the same expression.** `net_due_date` and
  `cash_discount_due_date` are both computed from the first cash-discount
  period. So they are equal on every row (`Fact.DueDatesAgree`), and
  `cash_discount_days_2` is never used. This looks like a defect in the
  notebook. It is kept as written.
- **A redundant guard on the day counts.** The blank-to-NULL guard before the
  day-count INT casts has no effect (`Casting.CastIntGuardRedundant`). The
  fiscal year is cast without one.
- **NULL in comparisons.** A NULL indicator, account type or document type
  fails every `=` test. It therefore takes the `ELSE` branch: 0 for the signed
  amount and the liability, "Other" for the description. A NULL local amount
  is not flagged as zero.

## Model

| member | source | states |
|---|---|---|
| `Sql.SqlTrim` | fabric-workspace/0_DataCleaning.Notebook/notebook-content.py:56 | `TRIM` removes the leading and trailing spaces and nothing else: the result is a slice of the input with only spaces around it, and neither starts nor ends with a space |
| `Sql.TrimKeeps` | fabric-workspace/0_DataCleaning.Notebook/notebook-content.py:47 | trimming before a cast removes only whitespace at the ends, so any other character stays in the text |
| `Sql.SqlEquals` | fabric-workspace/0_DataCleaning.Notebook/notebook-content.py:167-174 | a join condition holds only between equal values, and between equal values exactly when they are not NULL |
| `Sql.NullIfBlank` | fabric-workspace/0_DataCleaning.Notebook/notebook-content.py:150-158 | the text clean-up is NULL exactly for a NULL or all-space value; otherwise the value is returned unchanged, not trimmed |
| `Sql.SqlTrimEmptyIff` | fabric-workspace/0_DataCleaning.Notebook/notebook-content.py:56 | `TRIM(x) = ''` holds exactly when `x` consists of spaces |
| `Numerals.ParseInt` | fabric-workspace/0_DataCleaning.Notebook/notebook-content.py:47 | the INT cast gives a value exactly for a trimmed text that is an integer literal (an optional leading sign, then digits only, at least one) whose value fits 32 bits, and then that value; any other text gives NULL |
| `Numerals.IntPartsOfLiteral` | fabric-workspace/0_DataCleaning.Notebook/notebook-content.py:47 | splitting off the sign leaves digits exactly when the text is an integer literal, and the parts carry the literal's value |
| `Numerals.ParseIntRoundTrip` | fabric-workspace/0_DataCleaning.Notebook/notebook-content.py:47 | every integer's text casts back to that integer when it fits an INT, and to NULL when it does not |
| `Numerals.ParseDecimal` | fabric-workspace/0_DataCleaning.Notebook/notebook-content.py:90-95 | the DECIMAL(15,2) cast gives a value only for a trimmed text that is a decimal literal (an optional leading sign, digits and at most one point, at least one digit), always does for a literal of at most 13 characters, and every value fits 15 digits with 2 decimals; the value of each literal with at most two fraction digits is stated by `Numerals.ParseShortDecimal` |
| `Numerals.DecimalOfLiteral` | fabric-workspace/0_DataCleaning.Notebook/notebook-content.py:90-95 | the sign, whole part and fraction part are read as a number only for a decimal literal, and always for one of at most 13 characters |
| `Numerals.DecimalPartsOfLiteral` | fabric-workspace/0_DataCleaning.Notebook/notebook-content.py:90-95 | the parts hold digits only, at least one, exactly when the text is a decimal literal |
| `Numerals.ShortDecimalFits` | fabric-workspace/0_DataCleaning.Notebook/notebook-content.py:90-95 | a whole part of at most 13 digits, or 12 when a fraction follows, always fits DECIMAL(15,2) |
| `Numerals.NonNumericText` | fabric-workspace/0_DataCleaning.Notebook/notebook-content.py:90-95 | a text holding a character that is not whitespace, a digit, a sign or a point casts to NULL as INT and as DECIMAL |
| `Numerals.ParseShortDecimal` | fabric-workspace/0_DataCleaning.Notebook/notebook-content.py:90-95 | every decimal literal with at most two fraction digits (sign "", "-" or "+"; whole units; optionally a point and 0-2 fraction digits, as in "12.5", "100", "5.", ".50", "+7.00") casts to 100 × units + the fraction in cents, a single fraction digit counting tenths, negated under "-", or to NULL when that reaches 10^15 cents |
| `Numerals.ShortFractionAgrees` | fabric-workspace/0_DataCleaning.Notebook/notebook-content.py:90-95 | the cast's rounded reading of a fraction of at most two digits is its plain value in cents: "5" is 50, "05" is 5 |
| `Numerals.ParseDecimalRoundTrip` | fabric-workspace/0_DataCleaning.Notebook/notebook-content.py:90-95 | every amount's canonical text casts back to that amount when it fits DECIMAL(15,2), and to NULL when it overflows |
| `Calendar.FromCivil` | fabric-workspace/0_DataCleaning.Notebook/notebook-content.py:54-63 | a calendar day's date falls within that day's year |
| `Calendar.FromCivilOrder` | fabric-workspace/0_DataCleaning.Notebook/notebook-content.py:303-304 | dates are ordered as calendar days are, and distinct days are distinct dates, so MIN and MAX of posting dates follow the calendar |
| `Calendar.AddDays` | fabric-workspace/0_DataCleaning.Notebook/notebook-content.py:268 | the day of `DATEADD(day, n, d)` lies exactly n days after d |
| `Calendar.AddOneDay` | fabric-workspace/0_DataCleaning.Notebook/notebook-content.py:268 | adding one day lands on the next calendar day, across month and year ends |
| `Calendar.AdvanceCivil` | fabric-workspace/0_DataCleaning.Notebook/notebook-content.py:268 | stepping n days forward from a calendar day stays on valid days and, for n > 0, moves later in the calendar |
| `Calendar.AddDaysCalendar` | fabric-workspace/0_DataCleaning.Notebook/notebook-content.py:268 | adding any n >= 0 days to a calendar day's date lands on the calendar day n steps later |
| `Casting.DateText` | fabric-workspace/0_DataCleaning.Notebook/notebook-content.py:54-61 | the text to be cast is NULL exactly for a NULL or blank date column |
| `Casting.TryCastDate` | fabric-workspace/0_DataCleaning.Notebook/notebook-content.py:54-63 | a `yyyy-mm-dd` text casts to a date exactly when it names an existing calendar day, and then to that day; every other text goes to the general parser |
| `Casting.IsoText` | fabric-workspace/0_DataCleaning.Notebook/notebook-content.py:61 | a calendar day of years 0-9999 written `yyyy-mm-dd` has that shape and names that day |
| `Casting.DelimitedDate` | fabric-workspace/0_DataCleaning.Notebook/notebook-content.py:54-63 | a raw date already written `yyyy-mm-dd`, such as "2024-01-15", takes the `ELSE` branch unchanged and casts to that day |
| `Casting.DelimitedDateExample` | fabric-workspace/0_DataCleaning.Notebook/notebook-content.py:54-63 | "2024-01-15" is 2024-01-15 |
| `Casting.CastDate` | fabric-workspace/0_DataCleaning.Notebook/notebook-content.py:115-124 | a NULL or blank date column gives NULL |
| `Casting.CompactDate` | fabric-workspace/0_DataCleaning.Notebook/notebook-content.py:57-60 | an 8-digit value, with trailing spaces allowed, is read positionally as year, month and day; an impossible day gives NULL |
| `Casting.CompactDateRoundTrip` | fabric-workspace/0_DataCleaning.Notebook/notebook-content.py:65-74 | every day of years 0-9999 written as `yyyymmdd` is read back as that day |
| `Casting.CompactDateExample` | fabric-workspace/0_DataCleaning.Notebook/notebook-content.py:54-63 | "20240115" is 2024-01-15 |
| `Casting.NonexistentCompactDate` | fabric-workspace/0_DataCleaning.Notebook/notebook-content.py:115-124 | a `yyyymmdd` value naming a day that does not exist, such as 2024-02-30, gives NULL rather than an error |
| `Casting.LeadingSpaceShiftsDate` | fabric-workspace/0_DataCleaning.Notebook/notebook-content.py:57-60 | with a leading space, the regrouped text is shifted by one character and is handed to the general parser |
| `Casting.RemoveSeparators` | fabric-workspace/0_DataCleaning.Notebook/notebook-content.py:93 | the result is the input with its commas and spaces dropped and every other character kept, in order and as often as it occurs |
| `Casting.AmountText` | fabric-workspace/0_DataCleaning.Notebook/notebook-content.py:91-94 | a NULL or blank amount becomes "0"; any other amount is its text with the separators removed, not trimmed |
| `Casting.CastAmount` | fabric-workspace/0_DataCleaning.Notebook/notebook-content.py:90-95 | a NULL or blank amount is exactly 0; a non-blank amount casts only when its text without separators, trimmed, is a decimal literal, and always does for such a literal of at most 13 characters; any amount produced fits DECIMAL(15,2); the value of each literal with at most two fraction digits is stated by `Casting.ShortAmount` |
| `Casting.ShortAmount` | fabric-workspace/0_DataCleaning.Notebook/notebook-content.py:90-95 | a raw amount written as a decimal literal with at most two fraction digits, canonical or not, casts to the amount it denotes, or to NULL on overflow |
| `Casting.GroupedShortAmount` | fabric-workspace/0_DataCleaning.Notebook/notebook-content.py:90-95 | the same holds with a comma or space inserted anywhere, as in "-1,234.5" |
| `Casting.OneFractionDigitExample` | fabric-workspace/0_DataCleaning.Notebook/notebook-content.py:90-95 | "12.5" is 12.50, not 12.05 |
| `Casting.WholeUnitsExample` | fabric-workspace/0_DataCleaning.Notebook/notebook-content.py:90-95 | "100" is 100.00 |
| `Casting.TrailingPointExample` | fabric-workspace/0_DataCleaning.Notebook/notebook-content.py:90-95 | "5." is 5.00 |
| `Casting.LeadingPointExample` | fabric-workspace/0_DataCleaning.Notebook/notebook-content.py:90-95 | ".50" is 0.50 |
| `Casting.PlusSignExample` | fabric-workspace/0_DataCleaning.Notebook/notebook-content.py:90-95 | "+7.00" is 7.00 |
| `Casting.GroupedNegativeExample` | fabric-workspace/0_DataCleaning.Notebook/notebook-content.py:90-95 | "-1,234.5" is -1234.50 |
| `Casting.NonNumericAmount` | fabric-workspace/0_DataCleaning.Notebook/notebook-content.py:90-95 | an amount holding a character that is not whitespace, a comma, a digit, a sign or a point is NULL, not 0 |
| `Casting.NonNumericAmountExample` | fabric-workspace/0_DataCleaning.Notebook/notebook-content.py:90-95 | "12a" casts to NULL |
| `Casting.SeparatorIgnored` | fabric-workspace/0_DataCleaning.Notebook/notebook-content.py:93 | a comma or space inserted into a non-blank amount does not change the cast result |
| `Casting.GroupedAmount` | fabric-workspace/0_DataCleaning.Notebook/notebook-content.py:97-102 | an amount's text with a separator inserted anywhere, as in "1,234.56", still casts to that amount |
| `Casting.AmountRoundTrip` | fabric-workspace/0_DataCleaning.Notebook/notebook-content.py:104-109 | an amount's canonical text casts back to that amount, or to NULL on overflow |
| `Casting.LoneSeparatorExample` | fabric-workspace/0_DataCleaning.Notebook/notebook-content.py:142-147 | a lone "," is not blank, so it is not defaulted to 0; it casts to NULL |
| `Casting.TryCastInt` | fabric-workspace/0_DataCleaning.Notebook/notebook-content.py:47 | a NULL fiscal year is NULL; any other is the value of its trimmed text when that is an integer literal fitting 32 bits, and NULL otherwise |
| `Casting.CastInt` | fabric-workspace/0_DataCleaning.Notebook/notebook-content.py:126-131 | a NULL or blank day count gives NULL; any other is the value of its trimmed text when that is an integer literal fitting 32 bits, and NULL otherwise |
| `Casting.NonNumericInt` | fabric-workspace/0_DataCleaning.Notebook/notebook-content.py:126-131 | a day count or fiscal year holding a character that is not whitespace, a digit, a sign or a point is NULL |
| `Casting.CastIntGuardRedundant` | fabric-workspace/0_DataCleaning.Notebook/notebook-content.py:133-138 | the guarded and the unguarded INT casts agree on every value |
| `Casting.IntRoundTrip` | fabric-workspace/0_DataCleaning.Notebook/notebook-content.py:126-131 | every integer's text casts back to that integer when it fits an INT |
| `Staging.Selected` | fabric-workspace/0_DataCleaning.Notebook/notebook-content.py:177 | a line item is selected exactly when its account type is one of 'K' and 'S'; a NULL account type is not |
| `Staging.MatchingHeaders` | fabric-workspace/0_DataCleaning.Notebook/notebook-content.py:166-170 | the inner join pairs a line item with exactly the headers equal on MANDT, BUKRS, BELNR and GJAHR, with NULL matching nothing |
| `Staging.VendorSide` | fabric-workspace/0_DataCleaning.Notebook/notebook-content.py:172-174 | the left join gives each matching vendor, or one NULL vendor when none matches, and never nothing |
| `Staging.Pairs` | fabric-workspace/0_DataCleaning.Notebook/notebook-content.py:163-174 | a line item's rows are every header paired with every vendor-side entry, and there are `headers × vendors` of them |
| `Staging.JoinAll` | fabric-workspace/0_DataCleaning.Notebook/notebook-content.py:163-177 | a row is in the join exactly when its line item has account type 'K' or 'S', its header matches, and its vendor is a match (or NULL when there is none) |
| `Staging.LeftJoinKeepsItems` | fabric-workspace/0_DataCleaning.Notebook/notebook-content.py:172-174 | every selected line item appears with every header it matches, whether or not a vendor matches |
| `Staging.LeftJoinKeepsRows` | fabric-workspace/0_DataCleaning.Notebook/notebook-content.py:172-174 | the left join never has fewer rows than the inner join alone |
| `Staging.ItemKeepsRows` | fabric-workspace/0_DataCleaning.Notebook/notebook-content.py:172 | one line item contributes at least as many rows with the vendor master as without it |
| `Staging.OneHeaderAtMost` | fabric-workspace/0_DataCleaning.Notebook/notebook-content.py:166-170 | with unique header keys, a line item matches at most one header |
| `Staging.OneVendorSide` | fabric-workspace/0_DataCleaning.Notebook/notebook-content.py:172-174 | with unique vendor keys, the left join gives each line item exactly one vendor side |
| `Staging.JoinCountUnique` | fabric-workspace/0_DataCleaning.Notebook/notebook-content.py:163-177 | with unique keys, the join has one row per 'K'/'S' line item that has a header |
| `Staging.CastRow` | fabric-workspace/0_DataCleaning.Notebook/notebook-content.py:44-161 | each staging column comes from its own source column: the keys and texts copied, BLDAT, BUDAT and ZFBDT cast as dates, GJAHR, ZBD1T and ZBD2T as INT, DMBTR, WRBTR, MWSTS and SKFBT as amounts, LIFNR, ZTERM and the nine LFA1 columns cleaned of blanks; on a row without a vendor every vendor column is NULL; is_vendor_not_in_master is 1 exactly when the joined vendor row's LIFNR is NULL |
| `Staging.Stage1` | fabric-workspace/0_DataCleaning.Notebook/notebook-content.py:41-177 | row k of the staging table is the cast of join row k, one staging row per join row, and every one has account type 'K' or 'S' |
| `Staging.VendorNotInMasterFlag` | fabric-workspace/0_DataCleaning.Notebook/notebook-content.py:161 | is_vendor_not_in_master is 1 exactly when no vendor master row matches on MANDT and raw LIFNR |
| `Staging.Stage1CountUnique` | fabric-workspace/0_DataCleaning.Notebook/notebook-content.py:163-177 | with unique keys, the staging table has one row per 'K'/'S' line item that has a header |
| `Fact.SignedAmount` | fabric-workspace/0_DataCleaning.Notebook/notebook-content.py:246-250 | the amount for 'S', its negation for 'H' (NULL stays NULL), and 0 for any other indicator including NULL |
| `Fact.DebitCreditCancel` | fabric-workspace/0_DataCleaning.Notebook/notebook-content.py:247-248 | a debit and a credit of the same amount cancel |
| `Fact.VendorLiability` | fabric-workspace/0_DataCleaning.Notebook/notebook-content.py:252-255 | the amount on 'K' lines, and 0 on every other line |
| `Fact.DocumentTypeDescription` | fabric-workspace/0_DataCleaning.Notebook/notebook-content.py:258-263 | each label comes from exactly one code: RE→Invoice, KZ→Payment, KG→Credit Memo; every other code, and NULL, gives Other |
| `Fact.DueDate` | fabric-workspace/0_DataCleaning.Notebook/notebook-content.py:266-270 | a due date exists exactly when the baseline date and the day count do, and lies that many days after the baseline |
| `Fact.MissingVendorFlag` | fabric-workspace/0_DataCleaning.Notebook/notebook-content.py:280 | 1 exactly for a NULL vendor number, otherwise 0 |
| `Fact.ZeroAmountFlag` | fabric-workspace/0_DataCleaning.Notebook/notebook-content.py:281 | 1 exactly for an amount equal to 0; a NULL amount gives 0 |
| `Fact.Derive` | fabric-workspace/0_DataCleaning.Notebook/notebook-content.py:198-285 | a fact row keeps its staging row and load time; signed_amount, vendor_liability_amount, the description and the due date are computed from that row's own SHKZG, KOART, BLART, baseline date and first cash-discount period; the two due dates are equal and the flags are set by their conditions |
| `Fact.SignedAmountOfRaw` | fabric-workspace/0_DataCleaning.Notebook/notebook-content.py:246-250 | a fact row's signed_amount is the raw SHKZG applied to the cast of the raw DMBTR |
| `Fact.Stage2` | fabric-workspace/0_DataCleaning.Notebook/notebook-content.py:197-287 | row k of the fact table is the fact row derived from staging row k, all stamped with the same load time |
| `Fact.Stage2Deterministic` | fabric-workspace/0_DataCleaning.Notebook/notebook-content.py:285 | rebuilding the fact table changes nothing but the load timestamp |
| `Fact.DueDatesAgree` | fabric-workspace/0_DataCleaning.Notebook/notebook-content.py:266-277 | net_due_date and cash_discount_due_date are equal on every row |
| `Fact.DueDateIgnoresSecondPeriod` | fabric-workspace/0_DataCleaning.Notebook/notebook-content.py:273-277 | the cash-discount due date does not depend on cash_discount_days_2 |
| `Fact.MissingVendorOfRaw` | fabric-workspace/0_DataCleaning.Notebook/notebook-content.py:86 | is_missing_vendor is 1 exactly when the raw LIFNR was NULL or blank |
| `Aggregates.SumBy` | fabric-workspace/0_DataCleaning.Notebook/notebook-content.py:296-298 | SUM is NULL exactly when every value is NULL, including over an empty table |
| `Aggregates.SumByIsZeroSum` | fabric-workspace/0_DataCleaning.Notebook/notebook-content.py:305 | a non-NULL SUM equals the total with NULLs read as zero |
| `Aggregates.ZeroSumSplit` | fabric-workspace/0_DataCleaning.Notebook/notebook-content.py:318-320 | totals are additive over a pointwise split of a column |
| `Aggregates.SumOfIndicators` | fabric-workspace/0_DataCleaning.Notebook/notebook-content.py:301-302 | a SUM of 0/1 indicators is the number of rows meeting the condition (NULL over an empty table) |
| `Aggregates.ZeroSumFilter` | fabric-workspace/0_DataCleaning.Notebook/notebook-content.py:318-319 | a SUM of a column zeroed outside a condition is the sum of the column over the rows meeting that condition |
| `Aggregates.MinBy` | fabric-workspace/0_DataCleaning.Notebook/notebook-content.py:303 | MIN is one of the column's dates and no later than any of them; NULL exactly when all are NULL |
| `Aggregates.MaxBy` | fabric-workspace/0_DataCleaning.Notebook/notebook-content.py:304 | MAX is one of the column's dates and no earlier than any of them; NULL exactly when all are NULL |
| `Aggregates.Distinct` | fabric-workspace/0_DataCleaning.Notebook/notebook-content.py:299-300 | COUNT(DISTINCT) counts exactly the non-NULL values that occur, and never exceeds the row count |
| `Views.Quality` | fabric-workspace/0_DataCleaning.Notebook/notebook-content.py:293-306 | total_line_items is the row count; unique_vendors and unique_documents are the numbers of distinct non-NULL vendor and document numbers; earliest and latest posting dates are a row's posting date, no later (no earlier) than every non-NULL posting date, and NULL exactly when all posting dates are NULL |
| `Views.PostingDateRange` | fabric-workspace/0_DataCleaning.Notebook/notebook-content.py:303-304 | MIN and MAX over posting_date are the earliest and latest non-NULL posting dates, and NULL exactly when there is none |
| `Views.DistinctColumns` | fabric-workspace/0_DataCleaning.Notebook/notebook-content.py:299-300 | COUNT(DISTINCT) over vendor_number and document_number counts the distinct non-NULL values of those columns |
| `Views.InvoiceIndicator` | fabric-workspace/0_DataCleaning.Notebook/notebook-content.py:301 | 1 exactly on RE rows and 0 on every other row, a NULL document type included |
| `Views.PaymentIndicator` | fabric-workspace/0_DataCleaning.Notebook/notebook-content.py:302 | 1 exactly on KZ rows and 0 on every other row, a NULL document type included |
| `Views.InvoiceLiability` | fabric-workspace/0_DataCleaning.Notebook/notebook-content.py:318 | the vendor liability on RE rows and 0 on every other row |
| `Views.PaymentLiability` | fabric-workspace/0_DataCleaning.Notebook/notebook-content.py:319 | the vendor liability on KZ rows and 0 on every other row |
| `Views.MissingVendorCount` | fabric-workspace/0_DataCleaning.Notebook/notebook-content.py:296 | missing_vendor_count is the number of fact rows with a NULL vendor number, and at most total_line_items |
| `Views.ZeroAmountCount` | fabric-workspace/0_DataCleaning.Notebook/notebook-content.py:297 | zero_amount_count is the number of fact rows with local amount exactly 0 |
| `Views.InvoiceAndPaymentCounts` | fabric-workspace/0_DataCleaning.Notebook/notebook-content.py:301-302 | invoice_count and payment_count count line items of type RE and KZ, and are at least the number of distinct documents among them |
| `Views.NetVendorLiability` | fabric-workspace/0_DataCleaning.Notebook/notebook-content.py:305 | net_vendor_liability is the sum of the signed amounts, NULL only when every signed amount is NULL |
| `Views.EmptyQuality` | fabric-workspace/0_DataCleaning.Notebook/notebook-content.py:293-306 | over an empty fact table the counts are 0 and the sums, minimum and maximum are NULL |
| `Views.KeyOf` | fabric-workspace/0_DataCleaning.Notebook/notebook-content.py:322-327 | a row has a group key exactly when its vendor number is not NULL, and the key carries that number |
| `Sequences.FilterMultiplicity` | fabric-workspace/0_DataCleaning.Notebook/notebook-content.py:317-327 | a `WHERE` keeps each row that satisfies the condition as many times as it occurs, and drops every other row |
| `Views.GroupRows` | fabric-workspace/0_DataCleaning.Notebook/notebook-content.py:321-327 | a group holds the rows whose (vendor number, name, city, country) is its key, each as many times as it occurs in the table, and no other row |
| `Views.Totals` | fabric-workspace/0_DataCleaning.Notebook/notebook-content.py:317-320 | document_count is the number of distinct non-NULL document numbers; total_invoices sums the liability of the RE rows, total_payments that of the KZ rows, net_open_amount that of all rows, each NULL exactly when no value is left |
| `Views.VendorSummary` | fabric-workspace/0_DataCleaning.Notebook/notebook-content.py:311-327 | there is one entry per distinct (vendor number, name, city, country) among rows with a vendor number, each holding the totals of its non-empty group, and no more entries than rows |
| `Views.SummaryOf` | fabric-workspace/0_DataCleaning.Notebook/notebook-content.py:311-327 | the summary holds exactly the given keys, each with its group's totals |
| `Views.GroupsNotEmpty` | fabric-workspace/0_DataCleaning.Notebook/notebook-content.py:321-327 | a key taken from a row has a non-empty group |
| `Views.VendorSummaryCoverage` | fabric-workspace/0_DataCleaning.Notebook/notebook-content.py:322 | every row with a vendor number is summarised under its key; a row without one is in no group |
| `Views.NetOpenSplit` | fabric-workspace/0_DataCleaning.Notebook/notebook-content.py:318-320 | per vendor, net_open_amount is total_invoices plus total_payments plus the liability of the other document types |
| `Views.TotalsSplit` | fabric-workspace/0_DataCleaning.Notebook/notebook-content.py:318-320 | the same split for the aggregates of any group of rows |
| `Views.LiabilityParts` | fabric-workspace/0_DataCleaning.Notebook/notebook-content.py:318-319 | each row's liability falls into exactly one of the invoice, payment and other parts |
| `Pipeline.FactTable` | fabric-workspace/0_DataCleaning.Notebook/notebook-content.py:197-287 | the fact table has one row per join row, and row k is the fact row derived from the cast of join row k |
| `Pipeline.TotalLineItems` | fabric-workspace/0_DataCleaning.Notebook/notebook-content.py:295 | with unique keys, total_line_items is the number of 'K'/'S' line items that have a header |
| `Pipeline.VendorNotInMasterCount` | fabric-workspace/0_DataCleaning.Notebook/notebook-content.py:298 | vendor_not_in_master_count is the number of join rows whose line item matches no vendor master row |
| `Pipeline.MissingVendorCountOfRaw` | fabric-workspace/0_DataCleaning.Notebook/notebook-content.py:296 | missing_vendor_count is the number of join rows whose raw LIFNR is NULL or blank |

## Left out

- **Row order.** SQL tables and join results are bags. The model produces join
  rows line item by line item, then header by header, then vendor by vendor.
  Only which rows appear, and how many times, is meant to carry meaning.
- **Spark's general string-to-DATE parser** is a parameter (`general`). It
  handles every text that is not exactly `yyyy-mm-dd`: other shapes, surrounding
  whitespace, and the shifted texts of the leading-space case.
- **`CURRENT_TIMESTAMP()`** is a parameter. It is one value per statement.
- **Number syntax beyond the cases modelled.**
  - `Numerals.ParseDecimal`: exponent forms such as "1E3" and non-ASCII digits
    are read as NULL.
  - `Numerals.ParseInt`: texts with a fraction, such as "30.0", are read as
    NULL.
  - The strip before a numeric cast removes every character up to and
    including the space. Other Unicode whitespace is not modelled.
- **Range limits of the engine.**
  - Dates before year 0 are not modelled.
  - Overflow of the DATE range in `DATEADD` is not modelled.
  - SUM widens its result (DECIMAL(25,2) or BIGINT). Its overflow is not
    modelled.
- **Table mechanics.** The model does not cover the atomicity of
  `CREATE OR REPLACE TABLE/VIEW`, view materialisation, or the lakehouse
  engine.
- **Notebook scaffolding.** The model leaves out the `META` blocks, the usage
  comments, and the cell that only runs `SELECT * FROM ap_data_quality_summary`
  (line 350).
- **The sample-data generator** (sample-data/scripts/generate_sample_data.py).
  It draws its rows from seeded random choices and float arithmetic. It only
  produces input files and is not part of this model.
- **Literal examples.** The literals "20240230" and "1,234.56" are covered by
  general lemmas, not literal ones:
  - `Casting.NonexistentCompactDate` covers every nonexistent `yyyymmdd` day;
  - `Casting.GroupedAmount` covers a separator inserted into any amount's text.
- `Fact.DueDate`: in Spark SQL 3.3 and later the three-argument
  `DATEADD(day, n, d)` is TIMESTAMPADD, so `net_due_date` and
  `cash_discount_due_date` are TIMESTAMP columns at midnight of the due day.
  The model keeps the day as a DATE and drops the type and the time of day.
- `Calendar.AddDays`: likewise returns the day only, not the TIMESTAMP.
- `Calendar.AddDaysCalendar`: ties DATEADD to the calendar for n >= 0 only. A
  negative day count is covered only by the day arithmetic of `AddDays`.
- `Numerals.ParseDecimal`: the contract guarantees a value only for literals of
  at most 13 characters, because a longer literal may or may not overflow
  DECIMAL(15,2) depending on its digits; for a literal with at most two
  fraction digits `Numerals.ParseShortDecimal` decides it exactly. The value
  of a literal with three or more fraction digits is not stated. The body
  reads it rounded half away from zero on the third fraction digit, but an
  independent statement of that rounding would need the value of a digit
  string split at any position, and the amounts the notebook handles carry
  at most two fraction digits.
- `Casting.CastAmount`: the same two limits, since the amount cast is
  `Numerals.ParseDecimal` of the text without separators.

=== FILE: aggregates.dfy ===
/** SQL aggregate functions over a table taken as a sequence of rows, each
    applied to a column given as a function of the row: `SUM`, `MIN`, `MAX`
    and `COUNT(DISTINCT ...)`. All of them skip NULLs; `SUM`, `MIN` and `MAX`
    are NULL when no value is left, which includes the empty table. */
module Aggregates {
  import opened Sql
  import opened Sequences
  import opened Calendar

  /** `SUM(f(row))`. */
  function SumBy<T>(rows: seq<T>, f: T -> Option<int>): (r: Option<int>)
    ensures r.None? <==> forall k :: 0 <= k < |rows| ==> f(rows[k]).None?
  {
    if rows == [] then None
    else
      var prefix := rows[..|rows| - 1];
      assert forall k :: 0 <= k < |prefix| ==> prefix[k] == rows[k];
      var acc := SumBy(prefix, f);
      var x := f(rows[|rows| - 1]);
      if acc.None? then x
      else if x.None? then acc
      else Some(acc.value + x.value)
  }

  /** A reference total that reads NULL as zero. */
  function ZeroSum<T>(rows: seq<T>, f: T -> Option<int>): int {
    if rows == [] then 0
    else ZeroSum(rows[..|rows| - 1], f) + f(rows[|rows| - 1]).GetOr(0)
  }

  /** Where `SUM` is not NULL it is the total with NULLs read as zero. */
  lemma {:induction false} SumByIsZeroSum<T>(rows: seq<T>, f: T -> Option<int>)
    ensures SumBy(rows, f).GetOr(0) == ZeroSum(rows, f)
  {
    if rows != [] {
      SumByIsZeroSum(rows[..|rows| - 1], f);
    }
  }

  /** A column that splits pointwise into three parts (NULL read as zero)
      has a total that splits the same way. */
  lemma {:induction false} ZeroSumSplit<T>(rows: seq<T>, f: T -> Option<int>, a: T -> Option<int>, b: T -> Option<int>, c: T -> Option<int>)
    requires forall k :: 0 <= k < |rows| ==> f(rows[k]).GetOr(0) == a(rows[k]).GetOr(0) + b(rows[k]).GetOr(0) + c(rows[k]).GetOr(0)
    ensures ZeroSum(rows, f) == ZeroSum(rows, a) + ZeroSum(rows, b) + ZeroSum(rows, c)
  {
    if rows != [] {
      var prefix := rows[..|rows| - 1];
      assert forall k :: 0 <= k < |prefix| ==> prefix[k] == rows[k];
      ZeroSumSplit(prefix, f, a, b, c);
    }
  }

  /** Summing a column that is zeroed wherever `p` fails (NULL read as
      zero) is summing the column over just the rows that satisfy `p`. */
  lemma {:induction false} ZeroSumFilter<T>(rows: seq<T>, f: T -> Option<int>, p: T -> bool, g: T -> Option<int>)
    requires forall k :: 0 <= k < |rows| ==> g(rows[k]) == if p(rows[k]) then f(rows[k]) else Some(0)
    ensures ZeroSum(rows, g) == ZeroSum(Filter(rows, p), f)
  {
    if rows != [] {
      var prefix := rows[..|rows| - 1];
      var last := rows[|rows| - 1];
      assert forall k :: 0 <= k < |prefix| ==> prefix[k] == rows[k];
      ZeroSumFilter(prefix, f, p, g);
      var front := Filter(prefix, p);
      if p(last) {
        assert Filter(rows, p) == front + [last];
        assert (front + [last])[..|front|] == front;
      } else {
        assert Filter(rows, p) == front;
      }
    }
  }

  /** `SUM(CASE WHEN p THEN 1 ELSE 0 END)` counts the rows that satisfy `p`,
      except that over an empty table it is NULL. */
  lemma {:induction false} SumOfIndicators<T>(rows: seq<T>, f: T -> Option<int>, p: T -> bool)
    requires forall k :: 0 <= k < |rows| ==> f(rows[k]) == Some(if p(rows[k]) then 1 else 0)
    ensures SumBy(rows, f) == if rows == [] then None else Some(Count(rows, p))
  {
    if rows != [] {
      var prefix := rows[..|rows| - 1];
      assert forall k :: 0 <= k < |prefix| ==> prefix[k] == rows[k];
      SumOfIndicators(prefix, f, p);
    }
  }

  /** `MIN(f(row))` over a date column. */
  function MinBy<T>(rows: seq<T>, f: T -> Option<Date>): (r: Option<Date>)
    ensures r.None? <==> forall k :: 0 <= k < |rows| ==> f(rows[k]).None?
    ensures r.Some? ==> exists k :: 0 <= k < |rows| && f(rows[k]) == r
    ensures r.Some? ==> forall k :: 0 <= k < |rows| && f(rows[k]).Some? ==> r.value.days <= f(rows[k]).value.days
  {
    if rows == [] then None
    else
      var prefix := rows[..|rows| - 1];
      var last := |rows| - 1;
      assert forall k :: 0 <= k < |prefix| ==> prefix[k] == rows[k];
      var acc := MinBy(prefix, f);
      var x := f(rows[last]);
      if acc.None? then x
      else if x.None? || acc.value.days <= x.value.days then acc
      else x
  }

  /** `MAX(f(row))` over a date column. */
  function MaxBy<T>(rows: seq<T>, f: T -> Option<Date>): (r: Option<Date>)
    ensures r.None? <==> forall k :: 0 <= k < |rows| ==> f(rows[k]).None?
    ensures r.Some? ==> exists k :: 0 <= k < |rows| && f(rows[k]) == r
    ensures r.Some? ==> forall k :: 0 <= k < |rows| && f(rows[k]).Some? ==> f(rows[k]).value.days <= r.value.days
  {
    if rows == [] then None
    else
      var prefix := rows[..|rows| - 1];
      var last := |rows| - 1;
      assert forall k :: 0 <= k < |prefix| ==> prefix[k] == rows[k];
      var acc := MaxBy(prefix, f);
      var x := f(rows[last]);
      if acc.None? then x
      else if x.None? || x.value.days <= acc.value.days then acc
      else x
  }

  /** The distinct non-NULL values of a column; `COUNT(DISTINCT f(row))` is
      its size. */
  function Distinct<T, K(==,!new)>(rows: seq<T>, f: T -> Option<K>): (r: set<K>)
    ensures |r| <= |rows|
    ensures forall v :: v in r <==> exists k :: 0 <= k < |rows| && f(rows[k]) == Some(v)
  {
    if rows == [] then {}
    else
      var prefix := rows[..|rows| - 1];
      var last := |rows| - 1;
      assert forall k :: 0 <= k < |prefix| ==> prefix[k] == rows[k];
      var acc := Distinct(prefix, f);
      var r := match f(rows[last]) case None => acc case Some(v) => acc + {v};
      assert forall v :: v in r ==> exists k :: 0 <= k < |rows| && f(rows[k]) == Some(v) by {
        forall v | v in r
          ensures exists k :: 0 <= k < |rows| && f(rows[k]) == Some(v)
        {
          if v !in acc {
            assert f(rows[last]) == Some(v);
          }
        }
      }
      r
  }
}

=== FILE: calendar.dfy ===
/** Calendar dates as Spark's DATE type holds them: a count of days. Here the
    count starts at 0000-01-01 of the proleptic Gregorian calendar (Spark
    counts from 1970-01-01; the two differ by a constant, so order and day
    differences agree). `AddDays` is the day arithmetic of
    `DATEADD(day, n, d)`. In Spark SQL 3.3 and later the three-argument
    DATEADD is TIMESTAMPADD, whose result is the TIMESTAMP at midnight of that
    day; the model keeps the day and not the type or the time of day.

    `FromCivil` turns a valid year/month/day into a date; the lemmas show it
    is strictly order-preserving (so distinct calendar days are distinct
    dates and MIN/MAX over dates is calendar order) and that the day after a
    calendar day is its date plus one.
 */
module Calendar {

  datatype Date = Date(days: int)

  /** A year/month/day triple, not necessarily a real calendar day. */
  datatype Civil = Civil(year: int, month: int, day: int)

  predicate IsLeapYear(y: nat) {
    y % 4 == 0 && (y % 100 != 0 || y % 400 == 0)
  }

  function DaysInYear(y: nat): nat {
    if IsLeapYear(y) then 366 else 365
  }

  function DaysInMonth(y: nat, m: int): (n: nat)
    requires 1 <= m <= 12
    ensures 28 <= n <= 31
  {
    if m == 2 then (if IsLeapYear(y) then 29 else 28)
    else if m == 4 || m == 6 || m == 9 || m == 11 then 30
    else 31
  }

  /** A day that exists in the proleptic Gregorian calendar from year 0 on. */
  predicate IsValid(c: Civil) {
    0 <= c.year && 1 <= c.month <= 12 && 1 <= c.day <= DaysInMonth(c.year, c.month)
  }

  /** Days from 0000-01-01 to the first day of year `y`. */
  function DaysBeforeYear(y: nat): nat {
    if y == 0 then 0 else DaysBeforeYear(y - 1) + DaysInYear(y - 1)
  }

  /** Days from the first day of year `y` to the first day of month `m`. */
  function DaysBeforeMonth(y: nat, m: int): (n: nat)
    requires 1 <= m <= 12
    ensures n + DaysInMonth(y, m) <= DaysInYear(y)
    ensures m == 12 ==> n + DaysInMonth(y, m) == DaysInYear(y)
  {
    var common := [0, 31, 59, 90, 120, 151, 181, 212, 243, 273, 304, 334][m - 1];
    common + (if m > 2 && IsLeapYear(y) then 1 else 0)
  }

  /** Each month starts where the previous one ends. */
  lemma DaysBeforeNextMonth(y: nat, m: int)
    requires 1 <= m < 12
    ensures DaysBeforeMonth(y, m + 1) == DaysBeforeMonth(y, m) + DaysInMonth(y, m)
  {
  }

  /** The date of a valid calendar day. */
  function FromCivil(c: Civil): (d: Date)
    requires IsValid(c)
    ensures DaysBeforeYear(c.year) <= d.days < DaysBeforeYear(c.year) + DaysInYear(c.year)
  {
    Date(DaysBeforeYear(c.year) + DaysBeforeMonth(c.year, c.month) + c.day - 1)
  }

  /** The day `DATEADD(day, n, d)` falls on. */
  function AddDays(d: Date, n: int): (r: Date)
    ensures r.days - d.days == n
  {
    Date(d.days + n)
  }

  /** Calendar order: by year, then month, then day. */
  predicate CivilBefore(a: Civil, b: Civil) {
    a.year < b.year
    || (a.year == b.year && a.month < b.month)
    || (a.year == b.year && a.month == b.month && a.day < b.day)
  }

  lemma {:induction false} DaysBeforeYearMonotone(y1: nat, y2: nat)
    requires y1 <= y2
    ensures DaysBeforeYear(y1) + (if y1 < y2 then DaysInYear(y1) else 0) <= DaysBeforeYear(y2)
    decreases y2 - y1
  {
    if y1 < y2 {
      DaysBeforeYearMonotone(y1, y2 - 1);
    }
  }

  lemma {:induction false} DaysBeforeMonthMonotone(y: nat, m1: int, m2: int)
    requires 1 <= m1 <= m2 <= 12
    ensures DaysBeforeMonth(y, m1) + (if m1 < m2 then DaysInMonth(y, m1) else 0) <= DaysBeforeMonth(y, m2)
    decreases m2 - m1
  {
    if m1 < m2 {
      DaysBeforeMonthMonotone(y, m1, m2 - 1);
      DaysBeforeNextMonth(y, m2 - 1);
    }
  }

  /** Earlier calendar days have smaller dates, and only those: the encoding
      is strictly order-preserving, hence one-to-one. */
  lemma {:induction false} FromCivilOrder(a: Civil, b: Civil)
    requires IsValid(a) && IsValid(b)
    ensures FromCivil(a).days < FromCivil(b).days <==> CivilBefore(a, b)
    ensures FromCivil(a) == FromCivil(b) <==> a == b
  {
    if a.year < b.year {
      DaysBeforeYearMonotone(a.year, b.year);
    } else if b.year < a.year {
      DaysBeforeYearMonotone(b.year, a.year);
    } else if a.month < b.month {
      DaysBeforeMonthMonotone(a.year, a.month, b.month);
    } else if b.month < a.month {
      DaysBeforeMonthMonotone(a.year, b.month, a.month);
    }
  }

  /** The calendar day after a valid day. */
  function NextCivil(c: Civil): (r: Civil)
    requires IsValid(c)
    ensures IsValid(r) && CivilBefore(c, r)
  {
    if c.day < DaysInMonth(c.year, c.month) then Civil(c.year, c.month, c.day + 1)
    else if c.month < 12 then Civil(c.year, c.month + 1, 1)
    else Civil(c.year + 1, 1, 1)
  }

  /** The calendar day `n` days after a valid day. */
  function AdvanceCivil(c: Civil, n: nat): (r: Civil)
    requires IsValid(c)
    ensures IsValid(r)
    ensures n > 0 ==> CivilBefore(c, r)
  {
    if n == 0 then c
    else
      var before := AdvanceCivil(c, n - 1);
      var r := NextCivil(before);
      assert CivilBefore(c, r) by {
        if n > 1 {
          FromCivilOrder(c, before);
          FromCivilOrder(before, r);
          FromCivilOrder(c, r);
        }
      }
      r
  }

  /** Adding one day to a date lands on the next calendar day: the day count
      matches the calendar across month and year ends. */
  lemma {:induction false} AddOneDay(c: Civil)
    requires IsValid(c)
    ensures AddDays(FromCivil(c), 1) == FromCivil(NextCivil(c))
  {
    if c.day == DaysInMonth(c.year, c.month) && c.month < 12 {
      DaysBeforeNextMonth(c.year, c.month);
    }
  }

  /** Adding `n` days to the date of a calendar day lands on the calendar day
      reached by stepping `n` days forward, for every `n` from 0 on. */
  lemma {:induction false} AddDaysCalendar(c: Civil, n: nat)
    requires IsValid(c)
    ensures AddDays(FromCivil(c), n) == FromCivil(AdvanceCivil(c, n))
  {
    if n > 0 {
      AddDaysCalendar(c, n - 1);
      AddOneDay(AdvanceCivil(c, n - 1));
    }
  }
}

=== FILE: casting.dfy ===
/** The column casts of the staging query: each raw SAP string column
    becomes a typed, nullable column.

    - Dates (BLDAT, BUDAT, ZFBDT): NULL or blank gives NULL; a value whose
      TRIMMED length is 8 is regrouped from the first eight characters of the
      UNTRIMMED value as `cccc-cc-cc`; anything else is handed to Spark as it
      is. The cast itself yields NULL for a day that does not exist.
    - Amounts (DMBTR, WRBTR, MWSTS, SKFBT): NULL or blank gives 0; otherwise
      every ',' and ' ' is removed before the DECIMAL(15,2) cast, which
      yields NULL for text that is not a number or does not fit.
    - Integers (GJAHR, ZBD1T, ZBD2T): NULL or blank gives NULL; otherwise
      the INT cast.
 */
module Casting {
  import opened Sql
  import opened Numerals
  import opened Calendar
  import opened Sequences

  // ---------------------------------------------------------------- dates

  /** The text Spark is asked to cast for a raw date column, or NULL. */
  function DateText(f: Field): (r: Field)
    ensures r.None? <==> f.None? || IsBlank(f.value)
  {
    match f
    case None => None
    case Some(s) =>
      SqlTrimEmptyIff(s);
      var t := SqlTrim(s);
      if t == [] then None
      else if |t| == 8 then Some(s[..4] + "-" + s[4..6] + "-" + s[6..8])
      else f
  }

  /** `cccc-cc-cc` with a digit at every `c`. */
  predicate IsIsoShaped(t: Text) {
    && |t| == 10 && t[4] == '-' && t[7] == '-'
    && AllDigits(t[..4]) && AllDigits(t[5..7]) && AllDigits(t[8..])
  }

  /** The year, month and day a `yyyy-mm-dd` text names. */
  function IsoCivil(t: Text): Civil
    requires IsIsoShaped(t)
  {
    Civil(DigitsValue(t[..4]), DigitsValue(t[5..7]), DigitsValue(t[8..]))
  }

  /** `TRY_CAST(t AS DATE)`. A `yyyy-mm-dd` text is read as that calendar
      day, or NULL when the day does not exist. Every other text goes to
      Spark's general date parser, `general`, which is not part of this
      model. */
  function TryCastDate(t: Text, general: Text -> Option<Date>): (r: Option<Date>)
    ensures IsIsoShaped(t) ==> (r.Some? <==> IsValid(IsoCivil(t)))
    ensures IsIsoShaped(t) && IsValid(IsoCivil(t)) ==> r == Some(FromCivil(IsoCivil(t)))
    ensures !IsIsoShaped(t) ==> r == general(t)
  {
    if IsIsoShaped(t) then
      var c := IsoCivil(t);
      if IsValid(c) then Some(FromCivil(c)) else None
    else
      general(t)
  }

  /** A date column of the staging table: document_date, posting_date,
      baseline_payment_date. */
  function CastDate(f: Field, general: Text -> Option<Date>): (r: Option<Date>)
    ensures (f.None? || IsBlank(f.value)) ==> r.None?
  {
    match DateText(f)
    case None => None
    case Some(t) => TryCastDate(t, general)
  }

  /** A calendar day of years 0-9999 written `yyyy-mm-dd`. */
  function IsoText(c: Civil): (t: Text)
    requires IsValid(c) && c.year <= 9999
    ensures IsIsoShaped(t) && IsoCivil(t) == c
  {
    var t := PadDigits(c.year, 4) + "-" + PadDigits(c.month, 2) + "-" + PadDigits(c.day, 2);
    assert t[..4] == PadDigits(c.year, 4);
    assert t[5..7] == PadDigits(c.month, 2);
    assert t[8..] == PadDigits(c.day, 2);
    t
  }

  /** A raw date that is already written `yyyy-mm-dd`, such as "2024-01-15",
      is ten characters long after trimming, so it takes the `ELSE` branch
      and reaches the cast unchanged, which reads it as that day. */
  lemma {:induction false} DelimitedDate(c: Civil, general: Text -> Option<Date>)
    requires IsValid(c) && c.year <= 9999
    ensures CastDate(Some(IsoText(c)), general) == Some(FromCivil(c))
  {
    var t := IsoText(c);
    assert IsDigit(t[0]) && IsDigit(t[9]) by {
      assert t[0] == t[..4][0] && t[9] == t[8..][1];
    }
    TrimFixed(t, IsSpace);
    assert DateText(Some(t)) == Some(t);
  }

  /** "2024-01-15" is 2024-01-15. */
  lemma DelimitedDateExample(general: Text -> Option<Date>)
    ensures CastDate(Some("2024-01-15"), general) == Some(FromCivil(Civil(2024, 1, 15)))
  {
    IsoTextExample();
    DelimitedDate(Civil(2024, 1, 15), general);
  }

  /** 2024-01-15 written `yyyy-mm-dd`. */
  lemma IsoTextExample()
    ensures IsoText(Civil(2024, 1, 15)) == "2024-01-15"
  {
    YearDigitsExample();
    MonthDayDigitsExample();
    assert "2024" + "-" + "01" + "-" + "15" == "2024-01-15";
  }

  /** The year, month and day an 8-character `yyyymmdd` token names. */
  function CompactCivil(t: Text): Civil
    requires |t| == 8 && AllDigits(t)
  {
    Civil(DigitsValue(t[..4]), DigitsValue(t[4..6]), DigitsValue(t[6..]))
  }

  /** An 8-digit token, possibly followed by spaces, is read positionally as
      year, month and day: the calendar day it names, or NULL when that day
      does not exist. Spark's general parser is never consulted. */
  lemma {:induction false} CompactDate(t: Text, pad: Text, general: Text -> Option<Date>)
    requires |t| == 8 && AllDigits(t) && IsBlank(pad)
    ensures var c := CompactCivil(t);
      CastDate(Some(t + pad), general) == if IsValid(c) then Some(FromCivil(c)) else None
  {
    var s := t + pad;
    assert IsDigit(t[0]) && IsDigit(t[7]);
    TrimPadded(t, pad, IsSpace);
    assert s[..8] == t;
    var iso := s[..4] + "-" + s[4..6] + "-" + s[6..8];
    assert DateText(Some(s)) == Some(iso);
    RegroupCompact(s, t);
  }

  /** Regrouping a text whose first eight characters are the digits `t`
      gives a `yyyy-mm-dd` text naming the same year, month and day. */
  lemma {:induction false} RegroupCompact(s: Text, t: Text)
    requires |s| >= 8 && s[..8] == t && AllDigits(t)
    ensures var iso := s[..4] + "-" + s[4..6] + "-" + s[6..8];
      IsIsoShaped(iso) && IsoCivil(iso) == CompactCivil(t)
  {
    var iso := s[..4] + "-" + s[4..6] + "-" + s[6..8];
    assert |iso| == 10;
    assert iso[..4] == s[..4] == t[..4];
    assert iso[5..7] == s[4..6] == t[4..6];
    assert iso[8..] == s[6..8] == t[6..];
  }

  /** The `yyyymmdd` token of a calendar day in years 0-9999. */
  function CompactText(c: Civil): (t: Text)
    requires IsValid(c) && c.year <= 9999
    ensures |t| == 8 && AllDigits(t)
  {
    PadDigits(c.year, 4) + PadDigits(c.month, 2) + PadDigits(c.day, 2)
  }

  /** Every calendar day of years 0-9999 written as `yyyymmdd` (trailing
      spaces allowed) is read back as that day. */
  lemma {:induction false} CompactDateRoundTrip(c: Civil, pad: Text, general: Text -> Option<Date>)
    requires IsValid(c) && c.year <= 9999 && IsBlank(pad)
    ensures CastDate(Some(CompactText(c) + pad), general) == Some(FromCivil(c))
  {
    var t := CompactText(c);
    assert t[..4] == PadDigits(c.year, 4);
    assert t[4..6] == PadDigits(c.month, 2);
    assert t[6..] == PadDigits(c.day, 2);
    CompactDate(t, pad, general);
  }

  /** "20240115" is 2024-01-15. */
  lemma CompactDateExample(general: Text -> Option<Date>)
    ensures CastDate(Some("20240115"), general) == Some(FromCivil(Civil(2024, 1, 15)))
  {
    var c := Civil(2024, 1, 15);
    CompactTextExample();
    assert CompactText(c) + "" == "20240115";
    CompactDateRoundTrip(c, "", general);
  }

  lemma CompactTextExample()
    ensures CompactText(Civil(2024, 1, 15)) == "20240115"
  {
    YearDigitsExample();
    MonthDayDigitsExample();
    assert "2024" + "01" + "15" == "20240115";
  }

  lemma MonthDayDigitsExample()
    ensures PadDigits(1, 2) == "01" && PadDigits(15, 2) == "15"
  {
    assert PadDigits(1, 1) == "1";
    assert PadDigits(0, 1) == "0";
  }

  lemma YearDigitsExample()
    ensures PadDigits(2024, 4) == "2024"
  {
    assert PadDigits(2, 1) == "2";
    assert PadDigits(20, 2) == "20";
    assert PadDigits(202, 3) == "202";
  }

  /** A `yyyymmdd` token naming a day that does not exist, such as
      "20240230", gives NULL rather than an error. */
  lemma {:induction false} NonexistentCompactDate(y: nat, m: nat, d: nat, general: Text -> Option<Date>)
    requires y < 10000 && m < 100 && d < 100 && !IsValid(Civil(y, m, d))
    ensures CastDate(Some(PadDigits(y, 4) + PadDigits(m, 2) + PadDigits(d, 2)), general) == None
  {
    var t := PadDigits(y, 4) + PadDigits(m, 2) + PadDigits(d, 2);
    assert t[..4] == PadDigits(y, 4);
    assert t[4..6] == PadDigits(m, 2);
    assert t[6..] == PadDigits(d, 2);
    CompactDate(t, "", general);
    assert t + "" == t;
  }

  /** The length test looks at the trimmed value but the regrouping at the
      raw one, so a leading space shifts every field: " 20240115" is handed
      to Spark's general parser as " 202-40-11", with the last digit lost,
      instead of being read as 2024-01-15. */
  lemma {:induction false} LeadingSpaceShiftsDate(t: Text, general: Text -> Option<Date>)
    requires |t| == 8 && AllDigits(t)
    ensures CastDate(Some(" " + t), general) == general(" " + t[..3] + "-" + t[3..5] + "-" + t[5..7])
  {
    var s := " " + t;
    assert s[1..] == t;
    assert IsDigit(t[0]) && IsDigit(t[7]);
    assert TrimLeft(t, IsSpace) == t;
    TrimFixed(t, IsSpace);
    assert TrimLeft(s, IsSpace) == t;
    assert SqlTrim(s) == t;
    var shifted := s[..4] + "-" + s[4..6] + "-" + s[6..8];
    assert shifted == " " + t[..3] + "-" + t[3..5] + "-" + t[5..7];
    assert DateText(Some(s)) == Some(shifted);
    assert !IsIsoShaped(shifted) by {
      assert shifted[..4][0] == ' ';
    }
  }

  // -------------------------------------------------------------- amounts

  predicate IsSeparator(c: char) {
    c == ',' || c == ' '
  }

  /** A character `REPLACE` leaves in an amount. */
  predicate IsKept(c: char) {
    !IsSeparator(c)
  }

  /** `REPLACE(REPLACE(s, ',', ''), ' ', '')`: the characters of `s` other
      than commas and spaces, in their order. */
  function RemoveSeparators(s: Text): (r: Text)
    ensures r == Filter(s, IsKept)
    ensures |r| <= |s|
    ensures forall i :: 0 <= i < |r| ==> !IsSeparator(r[i]) && r[i] in s
    ensures forall i :: 0 <= i < |s| && !IsSeparator(s[i]) ==> s[i] in r
  {
    if s == [] then []
    else
      FilterFirst(s);
      (if IsSeparator(s[0]) then [] else [s[0]]) + RemoveSeparators(s[1..])
  }

  /** Filtering a text keeps or drops its first character, then filters the
      rest. */
  lemma {:induction false} FilterFirst(s: Text)
    requires s != []
    ensures Filter(s, IsKept) == (if IsSeparator(s[0]) then [] else [s[0]]) + Filter(s[1..], IsKept)
  {
    assert Filter([s[0]], IsKept) == if IsSeparator(s[0]) then [] else [s[0]] by {
      assert [s[0]][..0] == [];
    }
    assert [s[0]] + s[1..] == s;
    FilterAppend([s[0]], s[1..], IsKept);
  }

  /** The text handed to the DECIMAL cast for a raw amount column: "0" for
      NULL or blank, otherwise the value without its separators. */
  function AmountText(f: Field): (r: Text)
    ensures (f.None? || IsBlank(f.value)) ==> r == "0"
    ensures f.Some? && !IsBlank(f.value) ==> r == RemoveSeparators(f.value)
  {
    if f.None? then "0"
    else
      SqlTrimEmptyIff(f.value);
      if SqlTrim(f.value) == [] then "0" else RemoveSeparators(f.value)
  }

  /** An amount column of the staging table, in cents: amount_local_currency,
      amount_document_currency, tax_amount, cash_discount_amount. */
  function CastAmount(f: Field): (r: Option<int>)
    ensures (f.None? || IsBlank(f.value)) ==> r == Some(0)
    ensures r.Some? ==> FitsDecimal(r.value)
    ensures f.Some? && !IsBlank(f.value) ==>
      var t := Trim(RemoveSeparators(f.value), IsCastWhitespace);
      (r.Some? ==> IsDecimalLiteral(t)) && (IsDecimalLiteral(t) && |t| <= 13 ==> r.Some?)
  {
    ParseZero();
    ParseDecimal(AmountText(f))
  }

  lemma ParseZero()
    ensures ParseDecimal("0") == Some(0)
  {
    var zero: Text := "0";
    TrimFixed(zero, IsCastWhitespace);
    assert SplitSign(zero) == (false, zero);
    assert IndexOf(zero, '.') == 1;
    assert zero[..1] == zero;
    assert AllDigits(zero) && AllDigits([]) by {
      assert IsDigit(zero[0]);
    }
    assert DigitsValue(zero) == 0 by {
      assert zero[..0] == [];
    }
    assert FractionCents([]) == 0;
    assert DecimalOfParts(false, zero, []) == Some(0);
  }

  lemma {:induction false} RemoveSeparatorsAppend(a: Text, b: Text)
    ensures RemoveSeparators(a + b) == RemoveSeparators(a) + RemoveSeparators(b)
    decreases |a|
  {
    if a != [] {
      assert (a + b)[1..] == a[1..] + b;
      RemoveSeparatorsAppend(a[1..], b);
    } else {
      assert a + b == b;
    }
  }

  /** A comma or space anywhere inside a non-blank amount does not change
      its value. */
  lemma {:induction false} SeparatorIgnored(a: Text, sep: char, b: Text)
    requires IsSeparator(sep) && !IsBlank(a + b)
    ensures CastAmount(Some(a + [sep] + b)) == CastAmount(Some(a + b))
  {
    SeparatorIgnoredText(a, sep, b);
  }

  lemma {:induction false} SeparatorIgnoredText(a: Text, sep: char, b: Text)
    requires IsSeparator(sep) && !IsBlank(a + b)
    ensures AmountText(Some(a + [sep] + b)) == AmountText(Some(a + b))
  {
    InsertKeepsNonBlank(a, sep, b);
    RemoveSeparatorsInsert(a, sep, b);
  }

  lemma {:induction false} InsertKeepsNonBlank(a: Text, x: char, b: Text)
    requires !IsBlank(a + b)
    ensures !IsBlank(a + [x] + b)
  {
    var s := a + [x] + b;
    var i :| 0 <= i < |a + b| && !IsSpace((a + b)[i]);
    if i < |a| {
      assert s[i] == (a + b)[i];
    } else {
      assert s[i + 1] == (a + b)[i];
    }
  }

  lemma {:induction false} RemoveSeparatorsInsert(a: Text, sep: char, b: Text)
    requires IsSeparator(sep)
    ensures RemoveSeparators(a + [sep] + b) == RemoveSeparators(a + b)
  {
    assert RemoveSeparators([sep]) == [] by {
      assert [sep][1..] == [];
    }
    assert RemoveSeparators(a + [sep]) == RemoveSeparators(a) by {
      RemoveSeparatorsAppend(a, [sep]);
    }
    RemoveSeparatorsAppend(a + [sep], b);
    RemoveSeparatorsAppend(a, b);
  }

  /** Every amount's canonical text is read back as that amount when it fits
      DECIMAL(15,2), and as NULL when it overflows. */
  lemma {:induction false} AmountRoundTrip(c: int)
    ensures CastAmount(Some(RenderCents(c))) == if FitsDecimal(c) then Some(c) else None
  {
    var m := if c < 0 then -c else c;
    var sign: Text := if c < 0 then "-" else "";
    var w := Digits(m / 100);
    var f := PadDigits(m % 100, 2);
    assert RenderCents(c) == ShortDecimalText(sign, w, true, f);
    RenderedValue(c, sign, w, f);
    ShortAmount(sign, w, true, f);
  }

  /** A comma or space inserted anywhere into an amount's canonical text,
      as in "1,234.56", leaves its value unchanged. */
  lemma {:induction false} GroupedAmount(c: int, k: nat, sep: char)
    requires FitsDecimal(c) && k <= |RenderCents(c)| && IsSeparator(sep)
    ensures var s := RenderCents(c);
      CastAmount(Some(s[..k] + [sep] + s[k..])) == Some(c)
  {
    var s := RenderCents(c);
    assert s[..k] + s[k..] == s;
    assert !IsBlank(s) by {
      assert s[|s| - 1] != ' ';
    }
    SeparatorIgnored(s[..k], sep, s[k..]);
    AmountRoundTrip(c);
  }

  /** Every amount written with at most two fraction digits, canonical or
      not ("12.5", "100", "5.", ".50", "+7.00"), casts to the amount it
      denotes, or to NULL when that overflows. */
  lemma {:induction false} ShortAmount(sign: Text, w: Text, point: bool, f: Text)
    requires IsShortDecimal(sign, w, point, f)
    ensures CastAmount(Some(ShortDecimalText(sign, w, point, f))) == ShortDecimalValue(sign, w, point, f)
  {
    var s := ShortDecimalText(sign, w, point, f);
    ShortDecimalCharacters(sign, w, point, f);
    assert !IsBlank(s) by {
      assert !IsSeparator(s[0]);
    }
    NoSeparatorsKept(s);
    assert AmountText(Some(s)) == s;
    ParseShortDecimal(sign, w, point, f);
  }

  /** The same amount with a comma or space inserted anywhere, as in
      "1,234.5", has the same value. */
  lemma {:induction false} GroupedShortAmount(sign: Text, w: Text, point: bool, f: Text, k: nat, sep: char)
    requires IsShortDecimal(sign, w, point, f)
    requires k <= |ShortDecimalText(sign, w, point, f)| && IsSeparator(sep)
    ensures var s := ShortDecimalText(sign, w, point, f);
      CastAmount(Some(s[..k] + [sep] + s[k..])) == ShortDecimalValue(sign, w, point, f)
  {
    var s := ShortDecimalText(sign, w, point, f);
    assert s[..k] + s[k..] == s;
    ShortDecimalCharacters(sign, w, point, f);
    assert !IsBlank(s) by {
      assert !IsSeparator(s[0]);
    }
    SeparatorIgnored(s[..k], sep, s[k..]);
    ShortAmount(sign, w, point, f);
  }

  /** Such a text is not empty and holds only signs, digits and the point. */
  lemma {:induction false} ShortDecimalCharacters(sign: Text, w: Text, point: bool, f: Text)
    requires IsShortDecimal(sign, w, point, f)
    ensures var s := ShortDecimalText(sign, w, point, f);
      s != [] && forall i :: 0 <= i < |s| ==> !IsSeparator(s[i])
  {
    var tail: Text := if point then "." + f else "";
    var s := sign + w + tail;
    assert s == ShortDecimalText(sign, w, point, f);
    forall i | 0 <= i < |s|
      ensures !IsSeparator(s[i])
    {
      if i < |sign| {
        assert s[i] == sign[i];
      } else if i < |sign| + |w| {
        assert s[i] == w[i - |sign|] && IsDigit(w[i - |sign|]);
      } else {
        ShortTailCharacter(point, f, i - |sign| - |w|);
        assert s[i] == tail[i - |sign| - |w|];
      }
    }
  }

  lemma {:induction false} ShortTailCharacter(point: bool, f: Text, j: nat)
    requires AllDigits(f) && j < |if point then "." + f else ""|
    ensures var tail: Text := if point then "." + f else ""; !IsSeparator(tail[j])
  {
    if j > 0 {
      assert ("." + f)[j] == f[j - 1] && IsDigit(f[j - 1]);
    }
  }

  /** "12.5" is 12.50. */
  lemma OneFractionDigitExample()
    ensures CastAmount(Some("12.5")) == Some(1250)
  {
    var w: Text := "12";
    var f: Text := "5";
    assert w[..1] == "1" && "1"[..0] == [] && f[..0] == [];
    assert ShortDecimalText("", w, true, f) == "12.5";
    assert DigitsValue(w) == 12;
    assert DigitsValue(f) == 5;
    assert ShortFractionCents(f) == 50;
    assert ShortDecimalValue("", w, true, f) == Some(1250);
    ShortAmount("", w, true, f);
  }

  /** "100" is 100.00. */
  lemma WholeUnitsExample()
    ensures CastAmount(Some("100")) == Some(10000)
  {
    var w: Text := "100";
    assert w[..2] == "10" && "10"[..1] == "1" && "1"[..0] == [];
    assert ShortDecimalText("", w, false, "") == w;
    assert DigitsValue(w) == 100;
    assert ShortFractionCents([]) == 0;
    assert ShortDecimalValue("", w, false, "") == Some(10000);
    ShortAmount("", w, false, "");
  }

  /** "5." is 5.00. */
  lemma TrailingPointExample()
    ensures CastAmount(Some("5.")) == Some(500)
  {
    var w: Text := "5";
    assert w[..0] == [];
    assert ShortDecimalText("", w, true, "") == "5.";
    assert DigitsValue(w) == 5;
    assert ShortFractionCents([]) == 0;
    assert ShortDecimalValue("", w, true, "") == Some(500);
    ShortAmount("", w, true, "");
  }

  /** ".50" is 0.50. */
  lemma LeadingPointExample()
    ensures CastAmount(Some(".50")) == Some(50)
  {
    var f: Text := "50";
    assert f[..1] == "5" && "5"[..0] == [];
    assert ShortDecimalText("", "", true, f) == ".50";
    assert DigitsValue(f) == 50;
    assert DigitsValue([]) == 0;
    assert ShortFractionCents(f) == 50;
    assert ShortDecimalValue("", "", true, f) == Some(50);
    ShortAmount("", "", true, f);
  }

  /** "+7.00" is 7.00. */
  lemma PlusSignExample()
    ensures CastAmount(Some("+7.00")) == Some(700)
  {
    var w: Text := "7";
    var f: Text := "00";
    assert w[..0] == [] && f[..1] == "0" && "0"[..0] == [];
    assert ShortDecimalText("+", w, true, f) == "+7.00";
    assert DigitsValue(w) == 7;
    assert DigitsValue(f) == 0;
    assert ShortFractionCents(f) == 0;
    assert ShortDecimalValue("+", w, true, f) == Some(700);
    ShortAmount("+", w, true, f);
  }

  /** "-1,234.5" is -1234.50. */
  lemma GroupedNegativeExample()
    ensures CastAmount(Some("-1,234.5")) == Some(-123450)
  {
    var w: Text := "1234";
    var f: Text := "5";
    assert w[..3] == "123" && "123"[..2] == "12" && "12"[..1] == "1" && "1"[..0] == [];
    assert f[..0] == [];
    var s := ShortDecimalText("-", w, true, f);
    assert s == "-1234.5";
    assert s[..2] + [','] + s[2..] == "-1,234.5";
    assert DigitsValue(w) == 1234;
    assert DigitsValue(f) == 5;
    assert ShortFractionCents(f) == 50;
    assert ShortDecimalValue("-", w, true, f) == Some(-123450);
    GroupedShortAmount("-", w, true, f, 2, ',');
  }

  /** An amount holding a character that is not whitespace, a comma, a
      digit, a sign or a point is NULL, not 0. */
  lemma {:induction false} NonNumericAmount(s: Text, i: nat)
    requires i < |s| && !IsCastWhitespace(s[i]) && !IsSeparator(s[i])
    requires !IsDigit(s[i]) && !IsSign(s[i]) && s[i] != '.'
    ensures CastAmount(Some(s)) == None
  {
    assert !IsBlank(s);
    var r := RemoveSeparators(s);
    var j :| 0 <= j < |r| && r[j] == s[i];
    NonNumericText(r, j);
  }

  /** "12a" is not a number, so its amount is NULL. */
  lemma NonNumericAmountExample()
    ensures CastAmount(Some("12a")) == None
  {
    NonNumericAmount("12a", 2);
  }

  /** A lone separator is not blank, so it is not defaulted to 0; once the
      separator is removed nothing is left to cast, and the amount is NULL. */
  lemma LoneSeparatorExample()
    ensures CastAmount(Some(",")) == None
  {
    assert !IsBlank(",") by {
      assert !IsSpace(","[0]);
    }
    assert RemoveSeparators(",") == [];
    assert IndexOf([], '.') == 0;
    TrimFixed([], IsCastWhitespace);
  }

  /** Text without separators passes through the separator removal as it is. */
  lemma {:induction false} NoSeparatorsKept(s: Text)
    requires forall i :: 0 <= i < |s| ==> !IsSeparator(s[i])
    ensures RemoveSeparators(s) == s
    decreases |s|
  {
    if s != [] {
      NoSeparatorsKept(s[1..]);
      assert s == [s[0]] + s[1..];
    }
  }

  // ------------------------------------------------------------- integers

  /** `TRY_CAST(x AS INT)` of a raw column with no guard: fiscal_year. */
  function TryCastInt(f: Field): (r: Option<int>)
    ensures r.Some? ==> f.Some? && IntMin <= r.value <= IntMax
    ensures f.Some? ==> r == IntLiteralResult(Trim(f.value, IsCastWhitespace))
  {
    match f
    case None => None
    case Some(s) => ParseInt(s)
  }

  /** A guarded integer column of the staging table: cash_discount_days_1,
      cash_discount_days_2. */
  function CastInt(f: Field): (r: Option<int>)
    ensures (f.None? || IsBlank(f.value)) ==> r.None?
    ensures r.Some? ==> IntMin <= r.value <= IntMax
    ensures f.Some? ==> r == IntLiteralResult(Trim(f.value, IsCastWhitespace))
  {
    match f
    case None => None
    case Some(s) =>
      SqlTrimEmptyIff(s);
      BlankCastText(s);
      if SqlTrim(s) == [] then None else ParseInt(s)
  }

  /** A blank text trims to nothing before a cast, so it is no number. */
  lemma {:induction false} BlankCastText(s: Text)
    ensures IsBlank(s) ==> IntLiteralResult(Trim(s, IsCastWhitespace)) == None
  {
    if IsBlank(s) {
      assert AllSatisfy(s, IsCastWhitespace) by {
        forall k | 0 <= k < |s|
          ensures IsCastWhitespace(s[k])
        {
          assert IsSpace(s[k]);
        }
      }
      TrimEmptyIff(s, IsCastWhitespace);
    }
  }

  /** The blank-to-NULL guard in front of the day-count casts changes
      nothing: the INT cast already reads a blank text as NULL, so the guarded
      and the unguarded casts agree on every input. */
  lemma {:induction false} CastIntGuardRedundant(f: Field)
    ensures CastInt(f) == TryCastInt(f)
  {
    if f.Some? {
      BlankCastText(f.value);
    }
  }

  /** A day count or fiscal year holding a character that is not
      whitespace, a digit, a sign or a point is NULL. */
  lemma {:induction false} NonNumericInt(s: Text, i: nat)
    requires i < |s| && !IsCastWhitespace(s[i]) && !IsDigit(s[i]) && !IsSign(s[i]) && s[i] != '.'
    ensures CastInt(Some(s)) == None && TryCastInt(Some(s)) == None
  {
    NonNumericText(s, i);
  }

  /** Every integer's canonical text is read back as that integer when it
      fits an INT, and as NULL when it does not. */
  lemma {:induction false} IntRoundTrip(v: int)
    ensures CastInt(Some(RenderInt(v))) == if IntMin <= v <= IntMax then Some(v) else None
  {
    var s := RenderInt(v);
    assert s[|s| - 1] != ' ';
    SqlTrimEmptyIff(s);
    ParseIntRoundTrip(v);
  }
}

=== FILE: fact.dfy ===
/** Stage 2 of the notebook: `accounts_payable_fact`.

    Every staging row becomes one fact row: the staging columns unchanged,
    followed by the calculated columns (signed amount, vendor liability,
    document type description, the two due dates, two quality flags) and the
    load timestamp. `CURRENT_TIMESTAMP()` is a parameter `ts`, one value for
    the whole statement.
 */
module Fact {
  import opened Sql
  import opened Calendar
  import opened Numerals
  import opened Casting
  import opened Staging

  /** The value of `CURRENT_TIMESTAMP()`: microseconds since the epoch. */
  datatype Timestamp = Timestamp(micros: int)

  /** A row of `accounts_payable_fact`. The staging columns are kept under
      their staging names (the fact table renames `mandt` to `MANDT` and
      `document_type_code` to `document_type`). */
  datatype FactRow = FactRow(
    staging: StagingRow,
    signedAmount: Option<int>,
    vendorLiabilityAmount: Option<int>,
    documentTypeDescription: Text,
    netDueDate: Option<Date>,
    cashDiscountDueDate: Option<Date>,
    isMissingVendor: int,
    isZeroAmount: int,
    etlLoadTimestamp: Timestamp)

  /** `signed_amount`: the local amount as is for a debit ('S'), negated for
      a credit ('H'), and 0 for any other indicator, NULL included. A NULL
      amount stays NULL under 'S' and 'H'. */
  function SignedAmount(indicator: Field, amount: Option<int>): (r: Option<int>)
    ensures indicator == Some("S") ==> r == amount
    ensures indicator == Some("H") ==> (r.Some? <==> amount.Some?)
    ensures indicator == Some("H") && r.Some? ==> r.value + amount.value == 0
    ensures indicator != Some("S") && indicator != Some("H") ==> r == Some(0)
    ensures amount.Some? && FitsDecimal(amount.value) && r.Some? ==> FitsDecimal(r.value)
  {
    if indicator == Some("S") then amount
    else if indicator == Some("H") then
      match amount
      case None => None
      case Some(a) => Some(-a)
    else Some(0)
  }

  /** `vendor_liability_amount`: the local amount on vendor ('K') lines and
      0 on every other line. */
  function VendorLiability(accountType: Field, amount: Option<int>): (r: Option<int>)
    ensures accountType == Some("K") ==> r == amount
    ensures accountType != Some("K") ==> r == Some(0)
  {
    if accountType == Some("K") then amount else Some(0)
  }

  /** `document_type_description`. */
  function DocumentTypeDescription(code: Field): (r: Text)
    ensures r == "Invoice" <==> code == Some("RE")
    ensures r == "Payment" <==> code == Some("KZ")
    ensures r == "Credit Memo" <==> code == Some("KG")
    ensures r == "Other" <==> code != Some("RE") && code != Some("KZ") && code != Some("KG")
  {
    if code == Some("RE") then "Invoice"
    else if code == Some("KZ") then "Payment"
    else if code == Some("KG") then "Credit Memo"
    else "Other"
  }

  /** The day of `DATEADD(day, days, baseline)` when both are present, NULL
      otherwise: the expression behind both `net_due_date` and
      `cash_discount_due_date`. Spark returns a TIMESTAMP at midnight of that
      day; only the day is kept. */
  function DueDate(baseline: Option<Date>, days: Option<int>): (r: Option<Date>)
    ensures r.Some? <==> baseline.Some? && days.Some?
    ensures r.Some? ==> r.value.days - baseline.value.days == days.value
  {
    if baseline.Some? && days.Some? then Some(AddDays(baseline.value, days.value)) else None
  }

  /** `is_missing_vendor`. */
  function MissingVendorFlag(vendorNumber: Field): (r: int)
    ensures r == 1 <==> vendorNumber.None?
    ensures r == 0 <==> vendorNumber.Some?
  {
    if vendorNumber.None? then 1 else 0
  }

  /** `is_zero_amount`. `NULL = 0` is unknown, so a NULL amount is flagged 0. */
  function ZeroAmountFlag(amount: Option<int>): (r: int)
    ensures r == 1 <==> amount == Some(0)
    ensures r == 0 <==> amount != Some(0)
  {
    if amount == Some(0) then 1 else 0
  }

  /** The fact row of one staging row: every calculated column is computed
      from that row's own staging columns. */
  function Derive(s: StagingRow, ts: Timestamp): (f: FactRow)
    ensures f.staging == s && f.etlLoadTimestamp == ts
    ensures f.signedAmount == SignedAmount(s.debitCreditIndicator, s.amountLocalCurrency)
    ensures f.vendorLiabilityAmount == VendorLiability(s.accountType, s.amountLocalCurrency)
    ensures f.documentTypeDescription == DocumentTypeDescription(s.documentTypeCode)
    ensures f.netDueDate == DueDate(s.baselinePaymentDate, s.cashDiscountDays1)
    ensures f.netDueDate == f.cashDiscountDueDate
    ensures f.isMissingVendor == 1 <==> s.vendorNumber.None?
    ensures f.isZeroAmount == 1 <==> s.amountLocalCurrency == Some(0)
    ensures s.accountType != Some("K") ==> f.vendorLiabilityAmount == Some(0)
  {
    FactRow(
      s,
      SignedAmount(s.debitCreditIndicator, s.amountLocalCurrency),
      VendorLiability(s.accountType, s.amountLocalCurrency),
      DocumentTypeDescription(s.documentTypeCode),
      DueDate(s.baselinePaymentDate, s.cashDiscountDays1),
      DueDate(s.baselinePaymentDate, s.cashDiscountDays1),
      MissingVendorFlag(s.vendorNumber),
      ZeroAmountFlag(s.amountLocalCurrency),
      ts)
  }

  /** `CREATE OR REPLACE TABLE accounts_payable_fact AS SELECT ... FROM
      accounts_payable_staging`: one fact row per staging row, in order. */
  function Stage2(rows: seq<StagingRow>, ts: Timestamp): (r: seq<FactRow>)
    ensures |r| == |rows|
    ensures forall k :: 0 <= k < |r| ==> r[k] == Derive(rows[k], ts)
    ensures forall k :: 0 <= k < |r| ==> r[k].staging == rows[k] && r[k].etlLoadTimestamp == ts
  {
    seq(|rows|, k requires 0 <= k < |rows| => Derive(rows[k], ts))
  }

  /** The fact table without its load timestamp. */
  function Timeless(f: FactRow): FactRow {
    f.(etlLoadTimestamp := Timestamp(0))
  }

  /** Rebuilding the fact table from the same staging table changes nothing
      but the load timestamp. */
  lemma {:induction false} Stage2Deterministic(rows: seq<StagingRow>, t1: Timestamp, t2: Timestamp)
    ensures var a := Stage2(rows, t1); var b := Stage2(rows, t2);
      |a| == |b| && forall k :: 0 <= k < |a| ==> Timeless(a[k]) == Timeless(b[k])
    ensures rows != [] ==> (Stage2(rows, t1) == Stage2(rows, t2) <==> t1 == t2)
  {
    if rows != [] && Stage2(rows, t1) == Stage2(rows, t2) {
      assert Stage2(rows, t1)[0].etlLoadTimestamp == t1;
    }
  }

  /** `net_due_date` and `cash_discount_due_date` are computed by the same
      expression from the first cash-discount period, so they agree on every
      row; neither uses `cash_discount_days_2`. */
  lemma {:induction false} DueDatesAgree(rows: seq<StagingRow>, ts: Timestamp, k: nat)
    requires k < |rows|
    ensures var f := Stage2(rows, ts)[k];
      && f.netDueDate == f.cashDiscountDueDate
      && (f.netDueDate.Some? <==> rows[k].baselinePaymentDate.Some? && rows[k].cashDiscountDays1.Some?)
  {
  }

  /** The due date does not depend on the second cash-discount period. */
  lemma {:induction false} DueDateIgnoresSecondPeriod(s: StagingRow, days2: Option<int>, ts: Timestamp)
    ensures Derive(s.(cashDiscountDays2 := days2), ts).netDueDate == Derive(s, ts).netDueDate
  {
  }

  /** A debit and a credit of the same amount cancel in `signed_amount`. */
  lemma {:induction false} DebitCreditCancel(amount: int)
    ensures SignedAmount(Some("S"), Some(amount)).value + SignedAmount(Some("H"), Some(amount)).value == 0
  {
  }

  /** On a fact row, signed_amount is the raw debit/credit indicator SHKZG
      applied to the cast of the raw local amount DMBTR. */
  lemma {:induction false} SignedAmountOfRaw(j: Joined, general: Text -> Option<Date>, ts: Timestamp)
    ensures Derive(CastRow(j, general), ts).signedAmount == SignedAmount(j.item.SHKZG, CastAmount(j.item.DMBTR))
  {
  }

  /** On a staging row, the missing-vendor flag is 1 exactly when the raw
      vendor number was NULL or blank. */
  lemma {:induction false} MissingVendorOfRaw(j: Joined, general: Text -> Option<Date>, ts: Timestamp)
    ensures Derive(CastRow(j, general), ts).isMissingVendor == 1 <==> j.item.LIFNR.None? || IsBlank(j.item.LIFNR.value)
  {
  }
}

=== FILE: numerals.dfy ===
/** Spark's string-to-number casts used by the notebook: `TRY_CAST(s AS INT)`
    (fiscal year, cash-discount days) and `TRY_CAST(s AS DECIMAL(15,2))`
    (every amount). A decimal is held as a whole number of cents. Both casts
    first strip whitespace around the text; a text that is not a number, or
    whose value does not fit the target type, gives NULL.

    Each parse has a rendering partner (`RenderInt`, `RenderCents`) and a
    round-trip lemma connecting the two.
 */
module Numerals {
  import opened Sql

  predicate IsDigit(c: char) {
    '0' <= c <= '9'
  }

  predicate AllDigits(s: Text) {
    AllSatisfy(s, IsDigit)
  }

  function Pow10(k: nat): (p: nat)
    ensures p >= 1
  {
    if k == 0 then 1 else 10 * Pow10(k - 1)
  }

  function DigitValue(c: char): (d: nat)
    requires IsDigit(c)
    ensures d <= 9
  {
    c as int - '0' as int
  }

  function DigitChar(d: nat): (c: char)
    requires d <= 9
    ensures IsDigit(c) && DigitValue(c) == d
  {
    ('0' as int + d) as char
  }

  /** The value of a string of decimal digits, most significant first. */
  function DigitsValue(s: Text): (n: nat)
    requires AllDigits(s)
    ensures n < Pow10(|s|)
  {
    if s == [] then 0
    else 10 * DigitsValue(s[..|s| - 1]) + DigitValue(s[|s| - 1])
  }

  /** `n` written with exactly `width` digits, zero-padded on the left. */
  function PadDigits(n: nat, width: nat): (s: Text)
    requires n < Pow10(width)
    ensures |s| == width && AllDigits(s)
    ensures DigitsValue(s) == n
  {
    if width == 0 then []
    else
      var s := PadDigits(n / 10, width - 1) + [DigitChar(n % 10)];
      assert s[..|s| - 1] == PadDigits(n / 10, width - 1);
      s
  }

  /** `n` written in decimal without leading zeros ("0" for zero). */
  function Digits(n: nat): (s: Text)
    ensures |s| >= 1 && AllDigits(s)
    ensures DigitsValue(s) == n
  {
    if n < 10 then
      var s := [DigitChar(n)];
      assert s[..0] == [];
      s
    else
      var s := Digits(n / 10) + [DigitChar(n % 10)];
      assert s[..|s| - 1] == Digits(n / 10);
      s
  }

  const IntMin: int := -0x8000_0000
  const IntMax: int := 0x7fff_ffff

  predicate IsSign(c: char) {
    c == '+' || c == '-'
  }

  /** The text of an integer as `TRY_CAST(s AS INT)` accepts it once trimmed:
      an optional leading sign, and otherwise only digits, at least one of
      them. */
  predicate IsIntLiteral(t: Text) {
    && (forall i :: 0 <= i < |t| ==> IsDigit(t[i]) || (i == 0 && IsSign(t[i])))
    && (exists i :: 0 <= i < |t| && IsDigit(t[i]))
  }

  /** The text of a decimal as `TRY_CAST(s AS DECIMAL(15,2))` accepts it once
      trimmed: an optional leading sign, and otherwise only digits and at most
      one point, with at least one digit. */
  predicate IsDecimalLiteral(t: Text) {
    && (forall i :: 0 <= i < |t| ==> IsDigit(t[i]) || t[i] == '.' || (i == 0 && IsSign(t[i])))
    && (forall i, j :: 0 <= i < j < |t| && t[i] == '.' ==> t[j] != '.')
    && (exists i :: 0 <= i < |t| && IsDigit(t[i]))
  }

  /** The digits of an integer literal, without its sign. */
  function LiteralDigits(t: Text): (d: Text)
    requires IsIntLiteral(t)
    ensures d != [] && AllDigits(d)
  {
    var i :| 0 <= i < |t| && IsDigit(t[i]);
    if IsSign(t[0]) then
      assert forall j :: 0 <= j < |t| - 1 ==> t[1..][j] == t[j + 1];
      t[1..]
    else t
  }

  /** The value an integer literal denotes. */
  function IntLiteralValue(t: Text): int
    requires IsIntLiteral(t)
  {
    var n: int := DigitsValue(LiteralDigits(t));
    if t[0] == '-' then -n else n
  }

  /** What the INT cast gives for a trimmed text: its value when it is an
      integer literal whose value fits 32 bits, NULL otherwise. */
  function IntLiteralResult(t: Text): Option<int> {
    if IsIntLiteral(t) && IntMin <= IntLiteralValue(t) <= IntMax then Some(IntLiteralValue(t)) else None
  }

  /** A leading `+` or `-` split off a numeric literal: whether the value is
      negated, and the remaining text. */
  function SplitSign(s: Text): (r: (bool, Text))
    ensures |r.1| <= |s|
  {
    if s != [] && (s[0] == '-' || s[0] == '+') then (s[0] == '-', s[1..]) else (false, s)
  }

  /** An integer literal already split into its sign and digits: at least
      one digit, only digits, and a value inside the 32-bit range. */
  function IntOfParts(negative: bool, body: Text): (r: Option<int>)
    ensures r.Some? ==> IntMin <= r.value <= IntMax
  {
    if body == [] || !AllDigits(body) then None
    else
      var n: int := DigitsValue(body);
      var v := if negative then -n else n;
      if IntMin <= v <= IntMax then Some(v) else None
  }

  /** `TRY_CAST(s AS INT)`: surrounding whitespace, an optional sign, at least
      one digit, and a value inside the 32-bit range. */
  function ParseInt(s: Text): (r: Option<int>)
    ensures r.Some? ==> IntMin <= r.value <= IntMax
    ensures r == IntLiteralResult(Trim(s, IsCastWhitespace))
  {
    var split := SplitSign(Trim(s, IsCastWhitespace));
    IntPartsOfLiteral(Trim(s, IsCastWhitespace));
    IntOfParts(split.0, split.1)
  }

  /** Splitting off the sign leaves digits, at least one, exactly when the
      text is an integer literal; the sign and the digits then carry its
      value. */
  lemma {:induction false} IntPartsOfLiteral(t: Text)
    ensures var split := SplitSign(t); IntOfParts(split.0, split.1) == IntLiteralResult(t)
  {
    var split := SplitSign(t);
    var body := split.1;
    if t != [] && IsSign(t[0]) {
      assert body == t[1..];
      assert forall j :: 0 <= j < |body| ==> body[j] == t[j + 1];
      if body != [] && AllDigits(body) {
        assert IsDigit(t[1]);
        assert IsIntLiteral(t);
      }
      if IsIntLiteral(t) {
        var i :| 0 <= i < |t| && IsDigit(t[i]);
        assert i != 0;
        assert AllDigits(body);
      }
    } else {
      assert body == t;
      if body != [] && AllDigits(body) {
        assert IsDigit(t[0]);
        assert IsIntLiteral(t);
      }
    }
  }

  /** The canonical text of an integer: an optional `-` and its digits. */
  function RenderInt(v: int): Text {
    (if v < 0 then "-" else "") + Digits(if v < 0 then -v else v)
  }

  /** Every integer's text is read back as that integer when it fits an INT,
      and as NULL when it does not. */
  lemma {:induction false} ParseIntRoundTrip(v: int)
    ensures ParseInt(RenderInt(v)) == if IntMin <= v <= IntMax then Some(v) else None
  {
    var m := if v < 0 then -v else v;
    var d := Digits(m);
    assert IsDigit(d[0]) && IsDigit(d[|d| - 1]);
    SignSplit(RenderInt(v), if v < 0 then "-" else "", d);
    assert ParseInt(RenderInt(v)) == IntOfParts(v < 0, d);
    IntOfDigits(v < 0, d, v);
  }

  lemma {:induction false} IntOfDigits(negative: bool, d: Text, v: int)
    requires d != [] && AllDigits(d) && DigitsValue(d) == (if negative then -v else v)
    requires negative <==> v < 0
    ensures IntOfParts(negative, d) == if IntMin <= v <= IntMax then Some(v) else None
  {
  }

  /** DECIMAL(15,2) holds at most 13 integer digits and 2 fraction digits,
      so every value is strictly within 10^15 cents of zero. */
  const DecimalLimit: int := 1_000_000_000_000_000

  predicate FitsDecimal(cents: int) {
    -DecimalLimit < cents < DecimalLimit
  }

  /** The position of the first `c` in `s`, or `|s|` when there is none. */
  function IndexOf(s: Text, c: char): (k: nat)
    ensures k <= |s|
    ensures k < |s| ==> s[k] == c
    ensures forall i :: 0 <= i < k ==> s[i] != c
  {
    if s == [] then 0
    else if s[0] == c then 0
    else 1 + IndexOf(s[1..], c)
  }

  /** The cents of a fraction part, rounded half away from zero on the third
      fraction digit (the rounding Spark applies when it narrows a decimal). */
  function FractionCents(f: Text): (c: nat)
    requires AllDigits(f)
    ensures c <= 100
  {
    var tenths := if |f| >= 1 then DigitValue(f[0]) else 0;
    var hundredths := if |f| >= 2 then DigitValue(f[1]) else 0;
    var roundUp := if |f| >= 3 && DigitValue(f[2]) >= 5 then 1 else 0;
    10 * tenths + hundredths + roundUp
  }

  /** A decimal literal already split into its sign, whole part and fraction
      part: at least one digit, only digits in each part, and a rounded value
      that fits DECIMAL(15,2). */
  function DecimalOfParts(negative: bool, whole: Text, fraction: Text): (r: Option<int>)
    ensures r.Some? ==> FitsDecimal(r.value)
  {
    if |whole| + |fraction| == 0 || !AllDigits(whole) || !AllDigits(fraction) then None
    else
      var magnitude := 100 * DigitsValue(whole) + FractionCents(fraction);
      if magnitude < DecimalLimit then Some(if negative then -magnitude else magnitude)
      else None
  }

  /** `TRY_CAST(s AS DECIMAL(15,2))`, in cents: surrounding whitespace, an
      optional sign, digits with at most one decimal point, at least one
      digit, and a rounded value that fits DECIMAL(15,2). */
  function ParseDecimal(s: Text): (r: Option<int>)
    ensures r.Some? ==> FitsDecimal(r.value)
    ensures r.Some? ==> IsDecimalLiteral(Trim(s, IsCastWhitespace))
    ensures IsDecimalLiteral(Trim(s, IsCastWhitespace)) && |Trim(s, IsCastWhitespace)| <= 13 ==> r.Some?
  {
    var t := Trim(s, IsCastWhitespace);
    var parts := DecimalParts(t);
    DecimalOfLiteral(t);
    DecimalOfParts(parts.0, parts.1, parts.2)
  }

  /** The parts of a text are read as a number only when the text is a
      decimal literal, and always when it is a literal of at most 13
      characters. */
  lemma {:induction false} DecimalOfLiteral(t: Text)
    ensures var parts := DecimalParts(t);
      && (DecimalOfParts(parts.0, parts.1, parts.2).Some? ==> IsDecimalLiteral(t))
      && (IsDecimalLiteral(t) && |t| <= 13 ==> DecimalOfParts(parts.0, parts.1, parts.2).Some?)
  {
    var parts := DecimalParts(t);
    DecimalPartsOfLiteral(t);
    if IsDecimalLiteral(t) && |t| <= 13 {
      ShortDecimalFits(parts.0, parts.1, parts.2);
    }
  }

  /** A character that is not whitespace, a digit, a sign or a point keeps a
      text from being a number: both casts give NULL. */
  lemma {:induction false} NonNumericText(s: Text, i: nat)
    requires i < |s| && !IsCastWhitespace(s[i]) && !IsDigit(s[i]) && !IsSign(s[i]) && s[i] != '.'
    ensures ParseInt(s) == None && ParseDecimal(s) == None
  {
    var t := Trim(s, IsCastWhitespace);
    TrimKeeps(s, IsCastWhitespace, i);
    var j :| 0 <= j < |t| && t[j] == s[i];
    assert !IsIntLiteral(t) && !IsDecimalLiteral(t);
  }

  /** The sign, whole part and fraction part of a trimmed decimal text: the
      text after the sign is cut at its first point. */
  function DecimalParts(t: Text): (parts: (bool, Text, Text))
    ensures |parts.1| + |parts.2| <= |t|
    ensures parts.2 != [] ==> |parts.1| < |t|
  {
    var split := SplitSign(t);
    var body := split.1;
    var k := IndexOf(body, '.');
    (split.0, body[..k], if k < |body| then body[k + 1..] else [])
  }

  /** The parts hold digits only, at least one of them, exactly when the
      text is a decimal literal. */
  lemma {:induction false} DecimalPartsOfLiteral(t: Text)
    ensures var parts := DecimalParts(t);
      |parts.1| + |parts.2| > 0 && AllDigits(parts.1) && AllDigits(parts.2) <==> IsDecimalLiteral(t)
  {
    var body := SplitSign(t).1;
    var k := IndexOf(body, '.');
    var w := body[..k];
    var f := if k < |body| then body[k + 1..] else [];
    var offset := |t| - |body|;
    assert DecimalParts(t) == (SplitSign(t).0, w, f);
    SignLayout(t, body);
    CutLayout(body, k, w, f);
    if |w| + |f| > 0 && AllDigits(w) && AllDigits(f) {
      PartsMakeLiteral(t, body, k, w, f, offset);
    }
    if IsDecimalLiteral(t) {
      LiteralMakesParts(t, body, k, w, f, offset);
    }
  }

  /** The text after the sign sits in `t` shifted by the sign's length. */
  predicate SignedBody(t: Text, body: Text, offset: int) {
    && offset == |t| - |body|
    && (offset == 0 || offset == 1)
    && (offset == 1 ==> IsSign(t[0]))
    && (offset == 0 ==> t == [] || !IsSign(t[0]))
    && (forall j :: 0 <= j < |body| ==> body[j] == t[j + offset])
  }

  /** `w` and `f` are the characters of `body` before and after its first
      point at `k`. */
  predicate CutAtPoint(body: Text, k: int, w: Text, f: Text) {
    && 0 <= k <= |body|
    && (k < |body| ==> body[k] == '.')
    && (forall j :: 0 <= j < k ==> body[j] != '.')
    && |w| == k && (forall j :: 0 <= j < k ==> body[j] == w[j])
    && |f| == (if k < |body| then |body| - k - 1 else 0)
    && (forall j :: k < j < |body| ==> body[j] == f[j - k - 1])
  }

  lemma {:induction false} SignLayout(t: Text, body: Text)
    requires body == SplitSign(t).1
    ensures SignedBody(t, body, |t| - |body|)
  {
    if t != [] && IsSign(t[0]) {
      assert body == t[1..];
    } else {
      assert body == t;
    }
  }

  lemma {:induction false} CutLayout(body: Text, k: nat, w: Text, f: Text)
    requires k == IndexOf(body, '.') && w == body[..k]
    requires f == if k < |body| then body[k + 1..] else []
    ensures CutAtPoint(body, k, w, f)
  {
  }

  /** Digit-only parts make a decimal literal. */
  lemma {:induction false} PartsMakeLiteral(t: Text, body: Text, k: nat, w: Text, f: Text, offset: nat)
    requires SignedBody(t, body, offset) && CutAtPoint(body, k, w, f)
    requires |w| + |f| > 0 && AllDigits(w) && AllDigits(f)
    ensures IsDecimalLiteral(t)
  {
    forall j | 0 <= j < |body|
      ensures IsDigit(body[j]) || (j == k && body[j] == '.')
    {
      if j < k {
        assert IsDigit(w[j]);
      } else if j > k {
        assert IsDigit(f[j - k - 1]);
      }
    }
    forall i | 0 <= i < |t|
      ensures IsDigit(t[i]) || t[i] == '.' || (i == 0 && IsSign(t[i]))
    {
      if i >= offset {
        assert t[i] == body[i - offset];
      }
    }
    forall i, j | 0 <= i < j < |t| && t[i] == '.'
      ensures t[j] != '.'
    {
      assert i >= offset;
      assert body[i - offset] == t[i] && body[j - offset] == t[j];
    }
    if |w| > 0 {
      assert IsDigit(w[0]) && body[0] == w[0] && t[offset] == body[0];
    } else {
      assert IsDigit(f[0]) && body[k + 1] == f[0] && t[k + 1 + offset] == body[k + 1];
    }
  }

  /** The parts of a decimal literal hold digits only, at least one. */
  lemma {:induction false} LiteralMakesParts(t: Text, body: Text, k: nat, w: Text, f: Text, offset: nat)
    requires SignedBody(t, body, offset) && CutAtPoint(body, k, w, f)
    requires IsDecimalLiteral(t)
    ensures |w| + |f| > 0 && AllDigits(w) && AllDigits(f)
  {
    forall j | 0 <= j < |body|
      ensures IsDigit(body[j]) || body[j] == '.'
    {
      assert t[j + offset] == body[j];
    }
    forall j | 0 <= j < |w|
      ensures IsDigit(w[j])
    {
      assert body[j] == w[j];
    }
    forall j | 0 <= j < |f|
      ensures IsDigit(f[j])
    {
      assert body[j + k + 1] == f[j];
      assert t[k + offset] == '.';
    }
    var i :| 0 <= i < |t| && IsDigit(t[i]);
    assert i >= offset;
    assert body[i - offset] == t[i];
  }

  /** A short enough decimal always fits: a whole part of at most 13 digits,
      or of at most 12 digits when a fraction follows. */
  lemma {:induction false} ShortDecimalFits(negative: bool, w: Text, f: Text)
    requires |w| + |f| > 0 && AllDigits(w) && AllDigits(f)
    requires |w| <= 13 && (f != [] ==> |w| <= 12)
    ensures DecimalOfParts(negative, w, f).Some?
  {
    Pow10Monotone(|w|, if f == [] then 13 else 12);
    assert Pow10(12) == 1_000_000_000_000;
    assert Pow10(13) == 10 * Pow10(12);
    assert f == [] ==> FractionCents(f) == 0;
  }

  lemma {:induction false} Pow10Monotone(a: nat, b: nat)
    requires a <= b
    ensures Pow10(a) <= Pow10(b)
    decreases b - a
  {
    if a < b {
      Pow10Monotone(a, b - 1);
    }
  }

  /** The canonical text of an amount in cents: an optional `-`, the whole
      units, a point and exactly two fraction digits. */
  function RenderCents(c: int): Text {
    var m := if c < 0 then -c else c;
    (if c < 0 then "-" else "") + Digits(m / 100) + "." + PadDigits(m % 100, 2)
  }

  lemma {:induction false} FractionCentsOfTwoDigits(f: Text)
    requires |f| == 2 && AllDigits(f)
    ensures FractionCents(f) == DigitsValue(f)
  {
    assert f[..1][..0] == [];
  }

  /** The body of an amount's canonical text splits at its point into the
      whole units and the two fraction digits. */
  lemma {:induction false} SplitAtPoint(w: Text, f: Text)
    requires AllDigits(w) && AllDigits(f)
    ensures IndexOf(w + "." + f, '.') == |w|
    ensures (w + "." + f)[..|w|] == w && (w + "." + f)[|w| + 1..] == f
  {
    var body := w + "." + f;
    assert body[|w|] == '.';
    assert forall i :: 0 <= i < |w| ==> body[i] == w[i];
    assert body[..|w|] == w;
    assert body[|w| + 1..] == f;
  }

  // ------------------------------------------- short decimal literals

  /** The cents a fraction of at most two digits denotes: "5" is five tenths,
      "05" five hundredths, and no digits at all is nothing. */
  function ShortFractionCents(f: Text): (c: nat)
    requires AllDigits(f) && |f| <= 2
    ensures c < 100
  {
    if |f| == 1 then 10 * DigitsValue(f) else DigitsValue(f)
  }

  /** A decimal literal written with at most two fraction digits: a sign of
      "", "-" or "+", the whole units, and, when `point` holds, a point and
      the fraction digits. Either part may be empty but not both, so "12.5",
      "100", "5.", ".50" and "+7.00" are all of this form. */
  predicate IsShortDecimal(sign: Text, w: Text, point: bool, f: Text) {
    && (sign == "" || sign == "-" || sign == "+")
    && AllDigits(w) && AllDigits(f) && |w| + |f| > 0 && |f| <= 2
    && (point || f == [])
  }

  function ShortDecimalText(sign: Text, w: Text, point: bool, f: Text): Text {
    sign + w + (if point then "." + f else "")
  }

  /** What such a literal denotes in cents: its whole units and fraction,
      negated under "-", or NULL when it does not fit DECIMAL(15,2). */
  function ShortDecimalValue(sign: Text, w: Text, point: bool, f: Text): Option<int>
    requires IsShortDecimal(sign, w, point, f)
  {
    var m := 100 * DigitsValue(w) + ShortFractionCents(f);
    if m < DecimalLimit then Some(if sign == "-" then -m else m) else None
  }

  /** Every decimal literal with at most two fraction digits casts to the
      value it denotes, or to NULL when that overflows. */
  lemma {:induction false} ParseShortDecimal(sign: Text, w: Text, point: bool, f: Text)
    requires IsShortDecimal(sign, w, point, f)
    ensures ParseDecimal(ShortDecimalText(sign, w, point, f)) == ShortDecimalValue(sign, w, point, f)
  {
    ShortDecimalParts(sign, w, point, f);
    ShortPartsValue(sign, w, point, f);
  }

  lemma {:induction false} ShortPartsValue(sign: Text, w: Text, point: bool, f: Text)
    requires IsShortDecimal(sign, w, point, f)
    ensures DecimalOfParts(sign == "-", w, f) == ShortDecimalValue(sign, w, point, f)
  {
    ShortFractionAgrees(f);
  }

  /** Such a literal is read through its own sign, whole units and fraction
      digits. */
  lemma {:induction false} ShortDecimalParts(sign: Text, w: Text, point: bool, f: Text)
    requires IsShortDecimal(sign, w, point, f)
    ensures ParseDecimal(ShortDecimalText(sign, w, point, f)) == DecimalOfParts(sign == "-", w, f)
  {
    var body := w + (if point then "." + f else "");
    var s := sign + body;
    assert ShortDecimalText(sign, w, point, f) == s;
    ShortBodyLayout(w, point, f);
    SignSplit(s, sign, body);
    var k := IndexOf(body, '.');
    assert DecimalParts(s) == (sign == "-", w, f) by {
      assert body[..k] == w;
      assert (if k < |body| then body[k + 1..] else []) == f;
    }
  }

  /** The text after the sign starts with a digit or the point, ends with a
      digit or the point, and its first point (if any) follows the whole
      units. */
  lemma {:induction false} ShortBodyLayout(w: Text, point: bool, f: Text)
    requires AllDigits(w) && AllDigits(f) && |w| + |f| > 0 && (point || f == [])
    ensures var body := w + (if point then "." + f else "");
      && body != []
      && !IsCastWhitespace(body[0]) && !IsSign(body[0])
      && !IsCastWhitespace(body[|body| - 1])
      && IndexOf(body, '.') == |w|
      && body[..|w|] == w
      && (if |w| < |body| then body[|w| + 1..] else []) == f
  {
    if point {
      assert w + ("." + f) == w + "." + f;
      ShortBodyWithPoint(w, f);
    } else {
      ShortBodyWhole(w);
    }
  }

  lemma {:induction false} ShortBodyWithPoint(w: Text, f: Text)
    requires AllDigits(w) && AllDigits(f)
    ensures var body := w + "." + f;
      && !IsCastWhitespace(body[0]) && !IsSign(body[0])
      && !IsCastWhitespace(body[|body| - 1])
      && IndexOf(body, '.') == |w|
      && body[..|w|] == w
      && body[|w| + 1..] == f
  {
    var body := w + "." + f;
    SplitAtPoint(w, f);
    if w != [] {
      assert body[0] == w[0] && IsDigit(w[0]);
    }
    if f != [] {
      assert body[|body| - 1] == f[|f| - 1] && IsDigit(f[|f| - 1]);
    }
  }

  lemma {:induction false} ShortBodyWhole(w: Text)
    requires w != [] && AllDigits(w)
    ensures IndexOf(w, '.') == |w|
    ensures !IsCastWhitespace(w[0]) && !IsSign(w[0]) && !IsCastWhitespace(w[|w| - 1])
  {
    assert IsDigit(w[0]) && IsDigit(w[|w| - 1]);
  }

  /** A sign of "", "-" or "+" before text that starts and ends with neither
      whitespace nor (at its start) a sign is left alone by the trim and
      splits back off. */
  lemma {:induction false} SignSplit(s: Text, sign: Text, body: Text)
    requires sign == "" || sign == "-" || sign == "+"
    requires body != [] && !IsCastWhitespace(body[0]) && !IsSign(body[0])
    requires !IsCastWhitespace(body[|body| - 1])
    requires s == sign + body
    ensures Trim(s, IsCastWhitespace) == s
    ensures SplitSign(s) == (sign == "-", body)
  {
    assert s[|s| - 1] == body[|body| - 1];
    TrimFixed(s, IsCastWhitespace);
    if sign != "" {
      assert s[1..] == body;
    } else {
      assert s == body;
    }
  }

  /** The rounded reading of a fraction agrees with its plain value in cents
      when it has at most two digits. */
  lemma {:induction false} ShortFractionAgrees(f: Text)
    requires AllDigits(f) && |f| <= 2
    ensures FractionCents(f) == ShortFractionCents(f)
  {
    if |f| == 2 {
      FractionCentsOfTwoDigits(f);
    } else if |f| == 1 {
      assert f[..0] == [];
    }
  }

  /** Every amount's canonical text is read back as that amount when it fits
      DECIMAL(15,2), and as NULL when it overflows. */
  lemma {:induction false} ParseDecimalRoundTrip(c: int)
    ensures ParseDecimal(RenderCents(c)) == if FitsDecimal(c) then Some(c) else None
  {
    var m := if c < 0 then -c else c;
    var sign: Text := if c < 0 then "-" else "";
    var w := Digits(m / 100);
    var f := PadDigits(m % 100, 2);
    assert RenderCents(c) == ShortDecimalText(sign, w, true, f);
    ParseShortDecimal(sign, w, true, f);
    RenderedValue(c, sign, w, f);
  }

  /** The parts of an amount's canonical text are worth the amount itself,
      or NULL on overflow. */
  lemma {:induction false} RenderedValue(c: int, sign: Text, w: Text, f: Text)
    requires var m := if c < 0 then -c else c;
      sign == (if c < 0 then "-" else "") && w == Digits(m / 100) && f == PadDigits(m % 100, 2)
    ensures IsShortDecimal(sign, w, true, f)
    ensures ShortDecimalValue(sign, w, true, f) == if FitsDecimal(c) then Some(c) else None
  {
    var m := if c < 0 then -c else c;
    assert 100 * DigitsValue(w) + ShortFractionCents(f) == m by {
      assert m == 100 * (m / 100) + m % 100;
    }
  }
}

=== FILE: pipeline.dfy ===
/** The notebook end to end: the raw extracts through the staging and fact
    tables into the data quality summary. */
module Pipeline {
  import opened Sql
  import opened Sequences
  import opened Calendar
  import opened Staging
  import opened Fact
  import opened Aggregates
  import opened Views

  /** The fact table built from the raw extracts. */
  function FactTable(items: seq<LineItem>, hs: seq<Header>, vs: seq<Vendor>, general: Text -> Option<Date>, ts: Timestamp): (r: seq<FactRow>)
    ensures |r| == |JoinAll(items, hs, vs)|
    ensures forall k :: 0 <= k < |r| ==> r[k].staging == CastRow(JoinAll(items, hs, vs)[k], general)
    ensures forall k :: 0 <= k < |r| ==> r[k] == Derive(r[k].staging, ts)
    ensures forall k :: 0 <= k < |r| ==> Derived(r[k])
  {
    Stage2(Stage1(items, hs, vs, general), ts)
  }

  /** A join row whose line item matches no vendor master record. */
  function NotInMaster(vs: seq<Vendor>): Joined -> bool {
    (j: Joined) => !HasVendor(j.item, vs)
  }

  /** A join row whose raw vendor number is NULL or blank. */
  predicate RawVendorMissing(j: Joined) {
    j.item.LIFNR.None? || IsBlank(j.item.LIFNR.value)
  }

  /** `total_line_items`: with unique header and vendor keys, the number of
      line items with account type 'K' or 'S' that have a header. */
  lemma {:induction false} TotalLineItems(items: seq<LineItem>, hs: seq<Header>, vs: seq<Vendor>, general: Text -> Option<Date>, ts: Timestamp)
    requires HeaderKeysUnique(hs) && VendorKeysUnique(vs)
    ensures Quality(FactTable(items, hs, vs, general, ts)).totalLineItems == Count(items, KeptBy(hs))
  {
    JoinCountUnique(items, hs, vs);
  }

  /** `vendor_not_in_master_count`: the number of joined rows whose line
      item matches no vendor master record (NULL when there are none). */
  lemma {:induction false} VendorNotInMasterCount(items: seq<LineItem>, hs: seq<Header>, vs: seq<Vendor>, general: Text -> Option<Date>, ts: Timestamp)
    ensures var js := JoinAll(items, hs, vs);
      Quality(FactTable(items, hs, vs, general, ts)).vendorNotInMasterCount
        == if js == [] then None else Some(Count(js, NotInMaster(vs)))
  {
    var js := JoinAll(items, hs, vs);
    var facts := FactTable(items, hs, vs, general, ts);
    var flagged := (f: FactRow) => f.staging.isVendorNotInMaster == 1;
    forall k | 0 <= k < |facts|
      ensures NotInMasterColumn(facts[k]) == Some(if flagged(facts[k]) then 1 else 0)
      ensures flagged(facts[k]) == NotInMaster(vs)(js[k])
    {
      VendorNotInMasterFlag(items, hs, vs, general, k);
    }
    SumOfIndicators(facts, NotInMasterColumn, flagged);
    CountCorresponding(facts, flagged, js, NotInMaster(vs));
  }

  /** `missing_vendor_count`: the number of joined rows whose raw vendor
      number is NULL or blank (NULL when there are no rows). */
  lemma {:induction false} MissingVendorCountOfRaw(items: seq<LineItem>, hs: seq<Header>, vs: seq<Vendor>, general: Text -> Option<Date>, ts: Timestamp)
    ensures var js := JoinAll(items, hs, vs);
      Quality(FactTable(items, hs, vs, general, ts)).missingVendorCount
        == if js == [] then None else Some(Count(js, RawVendorMissing))
  {
    var js := JoinAll(items, hs, vs);
    var facts := FactTable(items, hs, vs, general, ts);
    MissingVendorCount(facts);
    forall k | 0 <= k < |facts|
      ensures HasNoVendorNumber(facts[k]) == RawVendorMissing(js[k])
    {
      assert facts[k].staging == CastRow(js[k], general);
    }
    CountCorresponding(facts, HasNoVendorNumber, js, RawVendorMissing);
  }
}

=== FILE: sequences.dfy ===
/** Selection and counting over sequences: the `WHERE` and `COUNT` of the
    notebook's queries, with a table taken as a sequence of rows. */
module Sequences {

  /** The rows of `s` that satisfy `p`, in their original order. */
  function Filter<T>(s: seq<T>, p: T -> bool): (r: seq<T>)
    ensures |r| <= |s|
    ensures forall i :: 0 <= i < |r| ==> r[i] in s && p(r[i])
    ensures forall i :: 0 <= i < |s| && p(s[i]) ==> s[i] in r
  {
    if s == [] then []
    else
      var last := s[|s| - 1];
      assert s == s[..|s| - 1] + [last];
      Filter(s[..|s| - 1], p) + (if p(last) then [last] else [])
  }

  /** Filtering a concatenation filters each part. */
  lemma {:induction false} FilterAppend<T>(a: seq<T>, b: seq<T>, p: T -> bool)
    ensures Filter(a + b, p) == Filter(a, p) + Filter(b, p)
    decreases |b|
  {
    if b == [] {
      assert a + b == a;
    } else {
      var front := b[..|b| - 1];
      assert (a + b)[..|a + b| - 1] == a + front;
      FilterAppend(a, front, p);
    }
  }

  /** Filtering keeps every row that satisfies `p` as often as it occurs,
      and no other row. */
  lemma {:induction false} FilterMultiplicity<T>(s: seq<T>, p: T -> bool, x: T)
    ensures multiset(Filter(s, p))[x] == if p(x) then multiset(s)[x] else 0
  {
    if s != [] {
      var prefix := s[..|s| - 1];
      FilterMultiplicity(prefix, p, x);
      assert s == prefix + [s[|s| - 1]];
    }
  }

  lemma FilterMultiplicities<T>(s: seq<T>, p: T -> bool)
    ensures forall x :: multiset(Filter(s, p))[x] == if p(x) then multiset(s)[x] else 0
  {
    forall x
      ensures multiset(Filter(s, p))[x] == if p(x) then multiset(s)[x] else 0
    {
      FilterMultiplicity(s, p, x);
    }
  }

  /** The number of rows of `s` that satisfy `p`. */
  function Count<T>(s: seq<T>, p: T -> bool): (n: nat)
    ensures n <= |s|
    ensures n == 0 <==> forall i :: 0 <= i < |s| ==> !p(s[i])
    ensures n == |s| <==> forall i :: 0 <= i < |s| ==> p(s[i])
  {
    if s == [] then 0
    else
      var n := Count(s[..|s| - 1], p);
      assert forall i :: 0 <= i < |s| - 1 ==> s[..|s| - 1][i] == s[i];
      n + (if p(s[|s| - 1]) then 1 else 0)
  }

  /** Filtering keeps exactly the counted rows. */
  lemma {:induction false} FilterCount<T>(s: seq<T>, p: T -> bool)
    ensures |Filter(s, p)| == Count(s, p)
  {
    if s != [] {
      FilterCount(s[..|s| - 1], p);
    }
  }

  /** When no two rows both satisfy `p`, at most one row is counted. */
  lemma {:induction false} CountAtMostOne<T>(s: seq<T>, p: T -> bool)
    requires forall a, b :: 0 <= a < b < |s| && p(s[a]) ==> !p(s[b])
    ensures Count(s, p) <= 1
  {
    if s != [] {
      var prefix := s[..|s| - 1];
      assert forall a :: 0 <= a < |prefix| ==> prefix[a] == s[a];
      CountAtMostOne(prefix, p);
    }
  }

  /** Two tables of the same length whose rows agree, position by position,
      on two conditions have the same count for them. */
  lemma {:induction false} CountCorresponding<A, B>(a: seq<A>, p: A -> bool, b: seq<B>, q: B -> bool)
    requires |a| == |b|
    requires forall k :: 0 <= k < |a| ==> p(a[k]) == q(b[k])
    ensures Count(a, p) == Count(b, q)
  {
    if a != [] {
      var n := |a| - 1;
      assert forall k :: 0 <= k < n ==> a[..n][k] == a[k] && b[..n][k] == b[k];
      CountCorresponding(a[..n], p, b[..n], q);
    }
  }
}

=== FILE: sql.dfy ===
/** SQL values as the accounts-payable notebook sees them.

    Every column of the raw SAP extracts (BKPF, BSEG, LFA1) is a string that
    may be NULL; the typed columns the notebook produces are nullable too.
    NULL is `None`. The module also holds SQL `TRIM`, the NULL-aware `=` of a
    join condition and the `CASE WHEN TRIM(x) = '' THEN NULL ELSE x END`
    clean-up the notebook applies to free-text columns.
 */
module Sql {

  /** `None` is SQL NULL. */
  datatype Option<+T> = None | Some(value: T) {

    /** The value, or `default` for NULL. */
    function GetOr(default: T): T {
      match this
      case Some(v) => v
      case None => default
    }
  }

  type Text = seq<char>

  /** A raw extract column: text or NULL. */
  type Field = Option<Text>

  /** The only character SQL `TRIM(x)` removes. */
  predicate IsSpace(c: char) {
    c == ' '
  }

  /** The characters Spark strips around a string before casting it to a
      number: everything up to and including the space character. */
  predicate IsCastWhitespace(c: char) {
    c <= ' '
  }

  predicate AllSatisfy(s: Text, p: char -> bool) {
    forall i :: 0 <= i < |s| ==> p(s[i])
  }

  /** A string that SQL `TRIM` reduces to `''`. */
  predicate IsBlank(s: Text) {
    AllSatisfy(s, IsSpace)
  }

  /** Drops the leading characters that satisfy `ws`. */
  function TrimLeft(s: Text, ws: char -> bool): (t: Text)
    ensures |t| <= |s|
    ensures s == s[..|s| - |t|] + t
    ensures AllSatisfy(s[..|s| - |t|], ws)
    ensures t == [] || !ws(t[0])
  {
    if s != [] && ws(s[0]) then
      var t := TrimLeft(s[1..], ws);
      assert s[1..] == s[1..][..|s[1..]| - |t|] + t;
      assert s[..|s| - |t|] == [s[0]] + s[1..][..|s[1..]| - |t|];
      t
    else
      s
  }

  /** Drops the trailing characters that satisfy `ws`. */
  function TrimRight(s: Text, ws: char -> bool): (t: Text)
    ensures |t| <= |s|
    ensures s == t + s[|t|..]
    ensures AllSatisfy(s[|t|..], ws)
    ensures t == [] || !ws(t[|t| - 1])
  {
    if s != [] && ws(s[|s| - 1]) then
      var t := TrimRight(s[..|s| - 1], ws);
      assert s[..|s| - 1] == t + s[..|s| - 1][|t|..];
      assert s[|t|..] == s[..|s| - 1][|t|..] + [s[|s| - 1]];
      t
    else
      s
  }

  /** Drops leading and trailing characters that satisfy `ws`. */
  function Trim(s: Text, ws: char -> bool): (t: Text)
    ensures |t| <= |s|
    ensures t == [] || (!ws(t[0]) && !ws(t[|t| - 1]))
  {
    TrimRight(TrimLeft(s, ws), ws)
  }

  /** SQL `TRIM(s)`: `s` with its leading and trailing spaces removed and
      nothing else changed. */
  function SqlTrim(s: Text): (t: Text)
    ensures |t| <= |s|
    ensures t == [] || (t[0] != ' ' && t[|t| - 1] != ' ')
    ensures SpacesAround(s, t)
  {
    var l := TrimLeft(s, IsSpace);
    var t := TrimRight(l, IsSpace);
    TrimSlice(s, l, t);
    t
  }

  /** `s` is `t` with a run of spaces before and a run of spaces after it. */
  predicate SpacesAround(s: Text, t: Text) {
    exists i :: 0 <= i <= |s| - |t| && s[i..i + |t|] == t && IsBlank(s[..i]) && IsBlank(s[i + |t|..])
  }

  /** A core left between two runs of spaces is a slice of the original. */
  lemma {:induction false} TrimSlice(s: Text, l: Text, t: Text)
    requires |l| <= |s| && s == s[..|s| - |l|] + l && IsBlank(s[..|s| - |l|])
    requires |t| <= |l| && l == t + l[|t|..] && IsBlank(l[|t|..])
    ensures SpacesAround(s, t)
  {
    var i := |s| - |l|;
    SliceOfAppend(s[..i], l);
    assert s[i..] == l;
    SliceOfAppend(t, l[|t|..]);
    assert l[..|t|] == t;
    assert s[i..i + |t|] == s[i..][..|t|];
    assert s[i + |t|..] == s[i..][|t|..];
  }

  lemma SliceOfAppend(a: Text, b: Text)
    ensures (a + b)[|a|..] == b && (a + b)[..|a|] == a
  {
  }

  /** Trimming leaves nothing exactly when every character is trimmed. */
  lemma {:induction false} TrimEmptyIff(s: Text, ws: char -> bool)
    ensures Trim(s, ws) == [] <==> AllSatisfy(s, ws)
  {
    var l := TrimLeft(s, ws);
    if TrimRight(l, ws) == [] && l != [] {
      assert false;
    }
    if AllSatisfy(s, ws) && l != [] {
      assert false;
    }
  }

  /** A character that is not trimmed survives trimming. */
  lemma {:induction false} TrimKeeps(s: Text, ws: char -> bool, i: nat)
    requires i < |s| && !ws(s[i])
    ensures s[i] in Trim(s, ws)
  {
    var l := TrimLeft(s, ws);
    var front := |s| - |l|;
    assert i >= front;
    assert l[i - front] == s[i];
    var t := TrimRight(l, ws);
    assert i - front < |t|;
    assert t[i - front] == s[i];
  }

  /** `TRIM(s) = ''` holds exactly for strings made of spaces. */
  lemma {:induction false} SqlTrimEmptyIff(s: Text)
    ensures SqlTrim(s) == [] <==> IsBlank(s)
  {
    TrimEmptyIff(s, IsSpace);
  }

  /** A string that neither starts nor ends with a trimmed character is
      left as it is. */
  lemma {:induction false} TrimFixed(s: Text, ws: char -> bool)
    requires s != [] ==> !ws(s[0]) && !ws(s[|s| - 1])
    ensures Trim(s, ws) == s
  {
    assert TrimLeft(s, ws) == s;
    assert TrimRight(s, ws) == s;
  }

  /** Trailing trimmed characters after a core that starts and ends with a
      kept character are all that trimming removes. */
  lemma {:induction false} TrimPadded(t: Text, pad: Text, ws: char -> bool)
    requires t != [] && !ws(t[0]) && !ws(t[|t| - 1])
    requires AllSatisfy(pad, ws)
    ensures Trim(t + pad, ws) == t
    decreases |pad|
  {
    assert (t + pad)[0] == t[0];
    assert TrimLeft(t + pad, ws) == t + pad;
    if pad == [] {
      assert t + pad == t;
      TrimFixed(t, ws);
    } else {
      var shorter := pad[..|pad| - 1];
      assert (t + pad)[..|t + pad| - 1] == t + shorter;
      TrimPadded(t, shorter, ws);
      assert TrimLeft(t + shorter, ws) == t + shorter by {
        assert (t + shorter)[0] == t[0];
      }
    }
  }

  /** `CASE WHEN TRIM(x) = '' THEN NULL ELSE x END`. For a NULL `x` the test
      `TRIM(NULL) = ''` is unknown, so the ELSE branch yields NULL again. */
  function NullIfBlank(f: Field): (r: Field)
    ensures r.None? <==> f.None? || IsBlank(f.value)
    ensures r.Some? ==> r == f
  {
    match f
    case None => None
    case Some(s) =>
      SqlTrimEmptyIff(s);
      if SqlTrim(s) == [] then None else f
  }

  /** SQL `a = b` in a join condition: NULL matches nothing, not even NULL. */
  predicate SqlEquals(a: Field, b: Field): (r: bool)
    ensures r ==> a == b
    ensures a == b ==> (r <==> a.Some?)
  {
    a.Some? && b.Some? && a.value == b.value
  }
}

=== FILE: staging.dfy ===
/** Stage 1 of the notebook: `accounts_payable_staging`.

    The raw extracts are three tables of nullable strings: BSEG (line items),
    BKPF (document headers) and LFA1 (vendor master). Each line item whose
    account type is 'K' or 'S' is inner-joined to the headers on the four-part
    document key and left-joined to the vendor master on client and raw vendor
    number; every joined row is then cast column by column.

    A table is a sequence of rows. The join produces its rows line item by
    line item, header by header, vendor by vendor; SQL promises no order, so
    only which rows appear, and how often, carries meaning.
 */
module Staging {
  import opened Sql
  import opened Sequences
  import opened Numerals
  import opened Calendar
  import opened Casting

  /** A BSEG row: one accounting line item. */
  datatype LineItem = LineItem(
    MANDT: Field, BUKRS: Field, BELNR: Field, GJAHR: Field, BUZEI: Field,
    SHKZG: Field, KOART: Field, LIFNR: Field, HKONT: Field,
    DMBTR: Field, WRBTR: Field, MWSTS: Field, ZUONR: Field, SGTXT: Field,
    ZFBDT: Field, ZBD1T: Field, ZBD2T: Field, ZTERM: Field, SKFBT: Field)

  /** A BKPF row: one accounting document header. */
  datatype Header = Header(
    MANDT: Field, BUKRS: Field, BELNR: Field, GJAHR: Field,
    BLART: Field, BLDAT: Field, BUDAT: Field, WAERS: Field,
    USNAM: Field, BKTXT: Field, XBLNR: Field, TCODE: Field)

  /** An LFA1 row: one vendor master record. */
  datatype Vendor = Vendor(
    MANDT: Field, LIFNR: Field, NAME1: Field, NAME2: Field, ORT01: Field,
    LAND1: Field, PSTLZ: Field, STRAS: Field, STCD1: Field, STCEG: Field,
    KTOKK: Field)

  /** One row of the join: a line item, its header, and its vendor, or
      `None` where the left join found no vendor. */
  datatype Joined = Joined(item: LineItem, header: Header, vendor: Option<Vendor>)

  /** A row of `accounts_payable_staging`. Amounts are in cents. */
  datatype StagingRow = StagingRow(
    // document keys
    mandt: Field, companyCode: Field, documentNumber: Field,
    fiscalYear: Option<int>, lineItemNumber: Field,
    // document header
    documentTypeCode: Field, documentDate: Option<Date>, postingDate: Option<Date>,
    currency: Field, userName: Field, documentHeaderText: Field,
    referenceDocument: Field, transactionCode: Field,
    // line item
    debitCreditIndicator: Field, accountType: Field, vendorNumber: Field,
    glAccount: Field, amountLocalCurrency: Option<int>,
    amountDocumentCurrency: Option<int>, taxAmount: Option<int>,
    assignmentReference: Field, lineItemText: Field,
    // payment terms
    baselinePaymentDate: Option<Date>, cashDiscountDays1: Option<int>,
    cashDiscountDays2: Option<int>, paymentTerms: Field,
    cashDiscountAmount: Option<int>,
    // vendor master
    vendorName: Field, vendorName2: Field, vendorCity: Field,
    vendorCountry: Field, vendorPostalCode: Field, vendorStreet: Field,
    vendorTaxNumber1: Field, vendorVatNumber: Field, vendorAccountGroup: Field,
    // quality flag
    isVendorNotInMaster: int)

  // ------------------------------------------------------------ the join

  /** The inner-join condition on MANDT, BUKRS, BELNR and GJAHR. */
  predicate HeaderMatches(i: LineItem, h: Header) {
    && SqlEquals(i.MANDT, h.MANDT) && SqlEquals(i.BUKRS, h.BUKRS)
    && SqlEquals(i.BELNR, h.BELNR) && SqlEquals(i.GJAHR, h.GJAHR)
  }

  /** The left-join condition on MANDT and the raw, untrimmed LIFNR. */
  predicate VendorMatches(i: LineItem, v: Vendor) {
    SqlEquals(i.MANDT, v.MANDT) && SqlEquals(i.LIFNR, v.LIFNR)
  }

  /** `KOART IN ('K', 'S')`; a NULL account type is not selected. */
  predicate Selected(i: LineItem): (r: bool)
    ensures r <==> i.KOART.Some? && i.KOART.value in {"K", "S"}
  {
    i.KOART == Some("K") || i.KOART == Some("S")
  }

  predicate HasHeader(i: LineItem, hs: seq<Header>) {
    exists k :: 0 <= k < |hs| && HeaderMatches(i, hs[k])
  }

  predicate HasVendor(i: LineItem, vs: seq<Vendor>) {
    exists k :: 0 <= k < |vs| && VendorMatches(i, vs[k])
  }

  /** The headers the inner join pairs with a line item. */
  function MatchingHeaders(i: LineItem, hs: seq<Header>): (r: seq<Header>)
    ensures forall h :: h in r <==> h in hs && HeaderMatches(i, h)
    ensures r != [] <==> HasHeader(i, hs)
  {
    var r := Filter(hs, h => HeaderMatches(i, h));
    assert HasHeader(i, hs) ==> r != [] by {
      if HasHeader(i, hs) {
        var k :| 0 <= k < |hs| && HeaderMatches(i, hs[k]);
        assert hs[k] in r;
      }
    }
    assert r != [] ==> HasHeader(i, hs) by {
      if r != [] {
        assert r[0] in hs;
      }
    }
    r
  }

  /** What the left join pairs with a line item: each matching vendor, or a
      single NULL-padded vendor when none matches. */
  function VendorSide(i: LineItem, vs: seq<Vendor>): (r: seq<Option<Vendor>>)
    ensures |r| >= 1
    ensures forall o :: o in r <==>
      if HasVendor(i, vs) then o.Some? && o.value in vs && VendorMatches(i, o.value)
      else o.None?
  {
    var matches := Filter(vs, v => VendorMatches(i, v));
    assert HasVendor(i, vs) <==> matches != [] by {
      if HasVendor(i, vs) {
        var k :| 0 <= k < |vs| && VendorMatches(i, vs[k]);
        assert vs[k] in matches;
      }
      if matches != [] {
        assert matches[0] in vs;
      }
    }
    if matches == [] then [None]
    else
      var r := seq(|matches|, k requires 0 <= k < |matches| => Some(matches[k]));
      assert forall o :: o in r ==> o.Some? && o.value in matches;
      assert forall v :: v in matches ==> Some(v) in r by {
        forall v | v in matches
          ensures Some(v) in r
        {
          var k :| 0 <= k < |matches| && matches[k] == v;
          assert r[k] == Some(v);
        }
      }
      r
  }

  /** A line item paired with each of `hs`, and each of those with each
      entry of `side`. */
  function Pairs(i: LineItem, hs: seq<Header>, side: seq<Option<Vendor>>): (r: seq<Joined>)
    ensures |r| == |hs| * |side|
    ensures forall j :: j in r <==> j.item == i && j.header in hs && j.vendor in side
  {
    if hs == [] then []
    else
      var prefix := hs[..|hs| - 1];
      var last := hs[|hs| - 1];
      var front := Pairs(i, prefix, side);
      var back := seq(|side|, k requires 0 <= k < |side| => Joined(i, last, side[k]));
      assert hs == prefix + [last];
      assert forall j :: j in back <==> j.item == i && j.header == last && j.vendor in side by {
        forall j: Joined | j.item == i && j.header == last && j.vendor in side
          ensures j in back
        {
          var k :| 0 <= k < |side| && side[k] == j.vendor;
          assert back[k] == j;
        }
      }
      assert |hs| * |side| == |prefix| * |side| + |side|;
      front + back
  }

  /** The join rows one line item contributes. */
  function ItemRows(i: LineItem, hs: seq<Header>, vs: seq<Vendor>): seq<Joined> {
    if Selected(i) then Pairs(i, MatchingHeaders(i, hs), VendorSide(i, vs)) else []
  }

  /** The conditions under which a row belongs to the join, stated without
      reference to how the join is computed. */
  predicate Qualifies(j: Joined, hs: seq<Header>, vs: seq<Vendor>) {
    && Selected(j.item)
    && j.header in hs && HeaderMatches(j.item, j.header)
    && if HasVendor(j.item, vs) then j.vendor.Some? && j.vendor.value in vs && VendorMatches(j.item, j.vendor.value)
       else j.vendor.None?
  }

  /** `bseg INNER JOIN bkpf ... LEFT JOIN lfa1 ... WHERE bseg.KOART IN ('K','S')`. */
  function JoinAll(items: seq<LineItem>, hs: seq<Header>, vs: seq<Vendor>): (r: seq<Joined>)
    ensures forall j :: j in r <==> j.item in items && Qualifies(j, hs, vs)
  {
    if items == [] then []
    else
      var prefix := items[..|items| - 1];
      var last := items[|items| - 1];
      assert items == prefix + [last];
      JoinAll(prefix, hs, vs) + ItemRows(last, hs, vs)
  }

  /** The left join never removes a row: every selected line item appears
      once for every header it matches, with or without a vendor. */
  lemma {:induction false} LeftJoinKeepsItems(items: seq<LineItem>, hs: seq<Header>, vs: seq<Vendor>, i: LineItem, h: Header)
    requires i in items && Selected(i) && h in hs && HeaderMatches(i, h)
    ensures exists o :: Joined(i, h, o) in JoinAll(items, hs, vs)
  {
    var o := VendorSide(i, vs)[0];
    assert o in VendorSide(i, vs);
    assert Joined(i, h, o) in JoinAll(items, hs, vs);
  }

  /** The left join never lowers the row count: the join has at least as
      many rows as the inner join alone, which is the join against an empty
      vendor master. */
  lemma {:induction false} LeftJoinKeepsRows(items: seq<LineItem>, hs: seq<Header>, vs: seq<Vendor>)
    ensures |JoinAll(items, hs, vs)| >= |JoinAll(items, hs, [])|
  {
    if items != [] {
      var prefix := items[..|items| - 1];
      var last := items[|items| - 1];
      LeftJoinKeepsRows(prefix, hs, vs);
      ItemKeepsRows(last, hs, vs);
    }
  }

  lemma {:induction false} ItemKeepsRows(i: LineItem, hs: seq<Header>, vs: seq<Vendor>)
    ensures |ItemRows(i, hs, vs)| >= |ItemRows(i, hs, [])|
  {
    if Selected(i) {
      var n := |MatchingHeaders(i, hs)|;
      var m := |VendorSide(i, vs)|;
      assert |VendorSide(i, [])| == 1 by {
        assert !HasVendor(i, []);
      }
      assert n * m >= n * 1;
    }
  }

  /** The four-part document key of a header. */
  function HeaderKey(h: Header): (Field, Field, Field, Field) {
    (h.MANDT, h.BUKRS, h.BELNR, h.GJAHR)
  }

  /** No two headers share a document key (BKPF's primary key). */
  predicate HeaderKeysUnique(hs: seq<Header>) {
    forall a, b :: 0 <= a < b < |hs| ==> HeaderKey(hs[a]) != HeaderKey(hs[b])
  }

  /** No two vendor master rows share client and vendor number (LFA1's
      primary key). */
  predicate VendorKeysUnique(vs: seq<Vendor>) {
    forall a, b :: 0 <= a < b < |vs| ==> (vs[a].MANDT, vs[a].LIFNR) != (vs[b].MANDT, vs[b].LIFNR)
  }

  /** The line items the staging table keeps: selected, with a header. */
  function KeptBy(hs: seq<Header>): LineItem -> bool {
    i => Selected(i) && HasHeader(i, hs)
  }

  lemma {:induction false} OneHeaderAtMost(i: LineItem, hs: seq<Header>)
    requires HeaderKeysUnique(hs)
    ensures |MatchingHeaders(i, hs)| <= 1
  {
    var p := h => HeaderMatches(i, h);
    CountAtMostOne(hs, p);
    FilterCount(hs, p);
  }

  lemma {:induction false} OneVendorSide(i: LineItem, vs: seq<Vendor>)
    requires VendorKeysUnique(vs)
    ensures |VendorSide(i, vs)| == 1
  {
    var p := v => VendorMatches(i, v);
    CountAtMostOne(vs, p);
    FilterCount(vs, p);
  }

  /** With unique header and vendor keys, the join has exactly one row per
      selected line item that has a header. */
  lemma {:induction false} JoinCountUnique(items: seq<LineItem>, hs: seq<Header>, vs: seq<Vendor>)
    requires HeaderKeysUnique(hs) && VendorKeysUnique(vs)
    ensures |JoinAll(items, hs, vs)| == Count(items, KeptBy(hs))
  {
    if items != [] {
      var prefix := items[..|items| - 1];
      var last := items[|items| - 1];
      JoinCountUnique(prefix, hs, vs);
      if Selected(last) {
        OneHeaderAtMost(last, hs);
        OneVendorSide(last, vs);
      }
    }
  }

  // ------------------------------------------------------------ the casts

  /** The vendor columns of a row the left join padded: all NULL. */
  const NullVendor := Vendor(None, None, None, None, None, None, None, None, None, None, None)

  /** The staging columns of one join row: each column comes from its own
      source column, copied, cleaned or cast; the vendor columns of a row
      the left join padded are all NULL. */
  function CastRow(j: Joined, general: Text -> Option<Date>): (r: StagingRow)
    // document keys
    ensures && r.mandt == j.item.MANDT && r.companyCode == j.item.BUKRS
            && r.documentNumber == j.item.BELNR && r.lineItemNumber == j.item.BUZEI
    ensures r.fiscalYear == TryCastInt(j.item.GJAHR)
    // document header
    ensures r.documentTypeCode == j.header.BLART
    ensures r.documentDate == CastDate(j.header.BLDAT, general)
    ensures r.postingDate == CastDate(j.header.BUDAT, general)
    ensures && r.currency == j.header.WAERS && r.userName == j.header.USNAM
            && r.documentHeaderText == j.header.BKTXT && r.referenceDocument == j.header.XBLNR
            && r.transactionCode == j.header.TCODE
    // line item
    ensures && r.debitCreditIndicator == j.item.SHKZG && r.accountType == j.item.KOART
            && r.glAccount == j.item.HKONT && r.assignmentReference == j.item.ZUONR
            && r.lineItemText == j.item.SGTXT
    ensures r.vendorNumber.None? <==> j.item.LIFNR.None? || IsBlank(j.item.LIFNR.value)
    ensures r.vendorNumber.Some? ==> r.vendorNumber == j.item.LIFNR
    ensures r.amountLocalCurrency == CastAmount(j.item.DMBTR)
    ensures r.amountDocumentCurrency == CastAmount(j.item.WRBTR)
    ensures r.taxAmount == CastAmount(j.item.MWSTS)
    ensures r.amountLocalCurrency.Some? ==> FitsDecimal(r.amountLocalCurrency.value)
    ensures j.item.DMBTR.None? || IsBlank(j.item.DMBTR.value) ==> r.amountLocalCurrency == Some(0)
    // payment terms
    ensures r.baselinePaymentDate == CastDate(j.item.ZFBDT, general)
    ensures r.cashDiscountDays1 == CastInt(j.item.ZBD1T)
    ensures r.cashDiscountDays2 == CastInt(j.item.ZBD2T)
    ensures r.paymentTerms == NullIfBlank(j.item.ZTERM)
    ensures r.cashDiscountAmount == CastAmount(j.item.SKFBT)
    // vendor master
    ensures j.vendor.Some? ==>
      var v := j.vendor.value;
      && r.vendorName == NullIfBlank(v.NAME1) && r.vendorName2 == NullIfBlank(v.NAME2)
      && r.vendorCity == NullIfBlank(v.ORT01) && r.vendorCountry == NullIfBlank(v.LAND1)
      && r.vendorPostalCode == NullIfBlank(v.PSTLZ) && r.vendorStreet == NullIfBlank(v.STRAS)
      && r.vendorTaxNumber1 == NullIfBlank(v.STCD1) && r.vendorVatNumber == NullIfBlank(v.STCEG)
      && r.vendorAccountGroup == NullIfBlank(v.KTOKK)
    ensures j.vendor.None? ==>
      && r.vendorName.None? && r.vendorName2.None? && r.vendorCity.None?
      && r.vendorCountry.None? && r.vendorPostalCode.None? && r.vendorStreet.None?
      && r.vendorTaxNumber1.None? && r.vendorVatNumber.None? && r.vendorAccountGroup.None?
    // quality flag
    ensures r.isVendorNotInMaster == 1 <==> j.vendor.None? || j.vendor.value.LIFNR.None?
    ensures r.isVendorNotInMaster == 0 || r.isVendorNotInMaster == 1
  {
    var i := j.item;
    var h := j.header;
    var v := j.vendor.GetOr(NullVendor);
    StagingRow(
      i.MANDT, i.BUKRS, i.BELNR, TryCastInt(i.GJAHR), i.BUZEI,
      h.BLART, CastDate(h.BLDAT, general), CastDate(h.BUDAT, general),
      h.WAERS, h.USNAM, h.BKTXT, h.XBLNR, h.TCODE,
      i.SHKZG, i.KOART, NullIfBlank(i.LIFNR), i.HKONT,
      CastAmount(i.DMBTR), CastAmount(i.WRBTR), CastAmount(i.MWSTS),
      i.ZUONR, i.SGTXT,
      CastDate(i.ZFBDT, general), CastInt(i.ZBD1T), CastInt(i.ZBD2T),
      NullIfBlank(i.ZTERM), CastAmount(i.SKFBT),
      NullIfBlank(v.NAME1), NullIfBlank(v.NAME2), NullIfBlank(v.ORT01),
      NullIfBlank(v.LAND1), NullIfBlank(v.PSTLZ), NullIfBlank(v.STRAS),
      NullIfBlank(v.STCD1), NullIfBlank(v.STCEG), NullIfBlank(v.KTOKK),
      if v.LIFNR.None? then 1 else 0)
  }

  /** `CREATE OR REPLACE TABLE accounts_payable_staging AS SELECT ...`.
      `general` is Spark's date parser for texts that are not `yyyy-mm-dd`. */
  function Stage1(items: seq<LineItem>, hs: seq<Header>, vs: seq<Vendor>, general: Text -> Option<Date>): (r: seq<StagingRow>)
    ensures |r| == |JoinAll(items, hs, vs)|
    ensures forall k :: 0 <= k < |r| ==> r[k] == CastRow(JoinAll(items, hs, vs)[k], general)
    ensures forall k :: 0 <= k < |r| ==> r[k].accountType == Some("K") || r[k].accountType == Some("S")
  {
    var js := JoinAll(items, hs, vs);
    assert forall k :: 0 <= k < |js| ==> js[k] in js;
    seq(|js|, k requires 0 <= k < |js| => CastRow(js[k], general))
  }

  /** `is_vendor_not_in_master` is 1 exactly for the rows whose line item
      matches no vendor master record on client and raw vendor number. */
  lemma {:induction false} VendorNotInMasterFlag(items: seq<LineItem>, hs: seq<Header>, vs: seq<Vendor>, general: Text -> Option<Date>, k: nat)
    requires k < |JoinAll(items, hs, vs)|
    ensures var j := JoinAll(items, hs, vs)[k];
      Stage1(items, hs, vs, general)[k].isVendorNotInMaster == if HasVendor(j.item, vs) then 0 else 1
  {
    var js := JoinAll(items, hs, vs);
    assert js[k] in js;
  }

  /** With unique header and vendor keys, the staging table has exactly one
      row per line item with account type 'K' or 'S' that has a header. */
  lemma {:induction false} Stage1CountUnique(items: seq<LineItem>, hs: seq<Header>, vs: seq<Vendor>, general: Text -> Option<Date>)
    requires HeaderKeysUnique(hs) && VendorKeysUnique(vs)
    ensures |Stage1(items, hs, vs, general)| == Count(items, KeptBy(hs))
  {
    JoinCountUnique(items, hs, vs);
  }
}

=== FILE: views.dfy ===
/** The two views over `accounts_payable_fact`: the one-row data quality
    summary and the per-vendor summary.

    The quality counts are sums of 0/1 flags, so over an empty fact table
    they are NULL, not 0; `COUNT(*)` and `COUNT(DISTINCT ...)` are 0 there. */
module Views {
  import opened Sql
  import opened Sequences
  import opened Calendar
  import opened Staging
  import opened Fact
  import opened Aggregates

  // ------------------------------------------------------------- columns

  function MissingVendorColumn(f: FactRow): Option<int> {
    Some(f.isMissingVendor)
  }

  function ZeroAmountColumn(f: FactRow): Option<int> {
    Some(f.isZeroAmount)
  }

  function NotInMasterColumn(f: FactRow): Option<int> {
    Some(f.staging.isVendorNotInMaster)
  }

  function VendorNumberColumn(f: FactRow): Field {
    f.staging.vendorNumber
  }

  function DocumentNumberColumn(f: FactRow): Field {
    f.staging.documentNumber
  }

  function PostingDateColumn(f: FactRow): Option<Date> {
    f.staging.postingDate
  }

  function SignedAmountColumn(f: FactRow): Option<int> {
    f.signedAmount
  }

  function LiabilityColumn(f: FactRow): Option<int> {
    f.vendorLiabilityAmount
  }

  predicate IsInvoice(f: FactRow) {
    f.staging.documentTypeCode == Some("RE")
  }

  predicate IsPayment(f: FactRow) {
    f.staging.documentTypeCode == Some("KZ")
  }

  /** `CASE WHEN document_type = 'RE' THEN 1 ELSE 0 END`. */
  function InvoiceIndicator(f: FactRow): (r: Option<int>)
    ensures r == Some(1) <==> f.staging.documentTypeCode == Some("RE")
    ensures r == Some(0) <==> f.staging.documentTypeCode != Some("RE")
  {
    Some(if IsInvoice(f) then 1 else 0)
  }

  /** `CASE WHEN document_type = 'KZ' THEN 1 ELSE 0 END`. */
  function PaymentIndicator(f: FactRow): (r: Option<int>)
    ensures r == Some(1) <==> f.staging.documentTypeCode == Some("KZ")
    ensures r == Some(0) <==> f.staging.documentTypeCode != Some("KZ")
  {
    Some(if IsPayment(f) then 1 else 0)
  }

  /** `CASE WHEN document_type = 'RE' THEN vendor_liability_amount ELSE 0 END`. */
  function InvoiceLiability(f: FactRow): (r: Option<int>)
    ensures f.staging.documentTypeCode == Some("RE") ==> r == f.vendorLiabilityAmount
    ensures f.staging.documentTypeCode != Some("RE") ==> r == Some(0)
  {
    if IsInvoice(f) then f.vendorLiabilityAmount else Some(0)
  }

  /** `CASE WHEN document_type = 'KZ' THEN vendor_liability_amount ELSE 0 END`. */
  function PaymentLiability(f: FactRow): (r: Option<int>)
    ensures f.staging.documentTypeCode == Some("KZ") ==> r == f.vendorLiabilityAmount
    ensures f.staging.documentTypeCode != Some("KZ") ==> r == Some(0)
  {
    if IsPayment(f) then f.vendorLiabilityAmount else Some(0)
  }

  /** The liability of a row whose document is neither an invoice nor a
      payment (a NULL document type included); no view column holds it. */
  function OtherLiability(f: FactRow): Option<int> {
    if IsInvoice(f) || IsPayment(f) then Some(0) else f.vendorLiabilityAmount
  }

  /** A fact row as Stage 2 computes it from its staging row. */
  predicate Derived(f: FactRow) {
    f == Derive(f.staging, f.etlLoadTimestamp)
  }

  // ------------------------------------------------ ap_data_quality_summary

  datatype QualitySummary = QualitySummary(
    totalLineItems: nat,
    missingVendorCount: Option<int>,
    zeroAmountCount: Option<int>,
    vendorNotInMasterCount: Option<int>,
    uniqueVendors: nat,
    uniqueDocuments: nat,
    invoiceCount: Option<int>,
    paymentCount: Option<int>,
    earliestPostingDate: Option<Date>,
    latestPostingDate: Option<Date>,
    netVendorLiability: Option<int>)

  /** `ap_data_quality_summary`. */
  function Quality(rows: seq<FactRow>): (q: QualitySummary)
    ensures q.totalLineItems == |rows|
    ensures q.uniqueVendors == |VendorNumbers(rows)| && q.uniqueDocuments == |DocumentNumbers(rows)|
    ensures q.uniqueVendors <= q.totalLineItems && q.uniqueDocuments <= q.totalLineItems
    ensures IsEarliestPostingDate(rows, q.earliestPostingDate)
    ensures IsLatestPostingDate(rows, q.latestPostingDate)
    ensures q.earliestPostingDate.Some? ==> q.earliestPostingDate.value.days <= q.latestPostingDate.value.days
  {
    var earliest := MinBy(rows, PostingDateColumn);
    var latest := MaxBy(rows, PostingDateColumn);
    PostingDateRange(rows);
    DistinctColumns(rows);
    QualitySummary(
      |rows|,
      SumBy(rows, MissingVendorColumn),
      SumBy(rows, ZeroAmountColumn),
      SumBy(rows, NotInMasterColumn),
      |Distinct(rows, VendorNumberColumn)|,
      |Distinct(rows, DocumentNumberColumn)|,
      SumBy(rows, InvoiceIndicator),
      SumBy(rows, PaymentIndicator),
      earliest,
      latest,
      SumBy(rows, SignedAmountColumn))
  }

  /** The distinct non-NULL vendor numbers among the rows. */
  function VendorNumbers(rows: seq<FactRow>): set<Text> {
    set k | 0 <= k < |rows| && rows[k].staging.vendorNumber.Some? :: rows[k].staging.vendorNumber.value
  }

  /** The distinct non-NULL document numbers among the rows. */
  function DocumentNumbers(rows: seq<FactRow>): set<Text> {
    set k | 0 <= k < |rows| && rows[k].staging.documentNumber.Some? :: rows[k].staging.documentNumber.value
  }

  /** `d` is the earliest posting date of the rows: NULL exactly when every
      posting date is NULL, and otherwise the posting date of some row and no
      later than any other. */
  predicate IsEarliestPostingDate(rows: seq<FactRow>, d: Option<Date>) {
    && (d.None? <==> forall k :: 0 <= k < |rows| ==> rows[k].staging.postingDate.None?)
    && (d.Some? ==> exists k :: 0 <= k < |rows| && rows[k].staging.postingDate == d)
    && (d.Some? ==> forall k :: 0 <= k < |rows| && rows[k].staging.postingDate.Some? ==>
          d.value.days <= rows[k].staging.postingDate.value.days)
  }

  /** `d` is the latest posting date of the rows, in the same sense. */
  predicate IsLatestPostingDate(rows: seq<FactRow>, d: Option<Date>) {
    && (d.None? <==> forall k :: 0 <= k < |rows| ==> rows[k].staging.postingDate.None?)
    && (d.Some? ==> exists k :: 0 <= k < |rows| && rows[k].staging.postingDate == d)
    && (d.Some? ==> forall k :: 0 <= k < |rows| && rows[k].staging.postingDate.Some? ==>
          rows[k].staging.postingDate.value.days <= d.value.days)
  }

  /** MIN and MAX over the posting-date column are the earliest and latest
      posting dates. */
  lemma {:induction false} PostingDateRange(rows: seq<FactRow>)
    ensures IsEarliestPostingDate(rows, MinBy(rows, PostingDateColumn))
    ensures IsLatestPostingDate(rows, MaxBy(rows, PostingDateColumn))
  {
    var lo := MinBy(rows, PostingDateColumn);
    var hi := MaxBy(rows, PostingDateColumn);
    if lo.Some? {
      var k :| 0 <= k < |rows| && PostingDateColumn(rows[k]) == lo;
      assert rows[k].staging.postingDate == lo;
    }
    if hi.Some? {
      var m :| 0 <= m < |rows| && PostingDateColumn(rows[m]) == hi;
      assert rows[m].staging.postingDate == hi;
    }
  }

  /** COUNT(DISTINCT) over the vendor-number and document-number columns
      counts the distinct vendor and document numbers. */
  lemma {:induction false} DistinctColumns(rows: seq<FactRow>)
    ensures Distinct(rows, VendorNumberColumn) == VendorNumbers(rows)
    ensures Distinct(rows, DocumentNumberColumn) == DocumentNumbers(rows)
  {
  }

  predicate HasNoVendorNumber(f: FactRow) {
    f.staging.vendorNumber.None?
  }

  predicate HasZeroAmount(f: FactRow) {
    f.staging.amountLocalCurrency == Some(0)
  }

  /** `missing_vendor_count` is the number of fact rows whose vendor number
      is NULL, and so never exceeds `total_line_items`; over an empty fact
      table it is NULL. */
  lemma {:induction false} MissingVendorCount(rows: seq<FactRow>)
    requires forall k :: 0 <= k < |rows| ==> Derived(rows[k])
    ensures Quality(rows).missingVendorCount == if rows == [] then None else Some(Count(rows, HasNoVendorNumber))
    ensures Quality(rows).missingVendorCount.GetOr(0) <= Quality(rows).totalLineItems
  {
    SumOfIndicators(rows, MissingVendorColumn, HasNoVendorNumber);
  }

  /** `zero_amount_count` is the number of fact rows whose local amount is
      exactly 0 (a NULL amount is not counted). */
  lemma {:induction false} ZeroAmountCount(rows: seq<FactRow>)
    requires forall k :: 0 <= k < |rows| ==> Derived(rows[k])
    ensures Quality(rows).zeroAmountCount == if rows == [] then None else Some(Count(rows, HasZeroAmount))
  {
    SumOfIndicators(rows, ZeroAmountColumn, HasZeroAmount);
  }

  /** `invoice_count` and `payment_count` count line items, not documents:
      each is the number of rows of its document type, and at least the
      number of distinct document numbers among those rows. */
  lemma {:induction false} InvoiceAndPaymentCounts(rows: seq<FactRow>)
    ensures Quality(rows).invoiceCount == if rows == [] then None else Some(Count(rows, IsInvoice))
    ensures Quality(rows).paymentCount == if rows == [] then None else Some(Count(rows, IsPayment))
    ensures Quality(rows).invoiceCount.GetOr(0) >= |Distinct(Filter(rows, IsInvoice), DocumentNumberColumn)|
    ensures Quality(rows).paymentCount.GetOr(0) >= |Distinct(Filter(rows, IsPayment), DocumentNumberColumn)|
  {
    SumOfIndicators(rows, InvoiceIndicator, IsInvoice);
    SumOfIndicators(rows, PaymentIndicator, IsPayment);
    FilterCount(rows, IsInvoice);
    FilterCount(rows, IsPayment);
  }

  /** `net_vendor_liability` is debits minus credits: with NULLs read as
      zero, the sum of the signed amounts. */
  lemma {:induction false} NetVendorLiability(rows: seq<FactRow>)
    ensures Quality(rows).netVendorLiability.GetOr(0) == ZeroSum(rows, SignedAmountColumn)
    ensures Quality(rows).netVendorLiability.None? <==> forall k :: 0 <= k < |rows| ==> rows[k].signedAmount.None?
  {
    SumByIsZeroSum(rows, SignedAmountColumn);
  }

  /** Over an empty fact table every count is 0 and every sum, minimum and
      maximum is NULL. */
  lemma {:induction false} EmptyQuality()
    ensures Quality([]) == QualitySummary(0, None, None, None, 0, 0, None, None, None, None, None)
  {
    var none: seq<FactRow> := [];
    assert |Distinct(none, VendorNumberColumn)| == 0;
    assert |Distinct(none, DocumentNumberColumn)| == 0;
  }

  // ------------------------------------------------------ ap_vendor_summary

  /** The `GROUP BY` key: vendor number, name, city and country. NULL name,
      city or country values group together, as SQL grouping does. */
  datatype VendorKey = VendorKey(vendorNumber: Text, vendorName: Field, vendorCity: Field, vendorCountry: Field)

  datatype VendorTotals = VendorTotals(
    documentCount: nat,
    totalInvoices: Option<int>,
    totalPayments: Option<int>,
    netOpenAmount: Option<int>)

  /** The group key of a row; `None` for a row that `WHERE vendor_number IS
      NOT NULL` drops. */
  function KeyOf(f: FactRow): (r: Option<VendorKey>)
    ensures r.None? <==> f.staging.vendorNumber.None?
    ensures r.Some? ==> Some(r.value.vendorNumber) == f.staging.vendorNumber
  {
    match f.staging.vendorNumber
    case None => None
    case Some(v) => Some(VendorKey(v, f.staging.vendorName, f.staging.vendorCity, f.staging.vendorCountry))
  }

  /** The rows of one group. */
  function GroupRows(rows: seq<FactRow>, key: VendorKey): (g: seq<FactRow>)
    ensures forall k :: 0 <= k < |g| ==> g[k] in rows && KeyOf(g[k]) == Some(key)
    ensures forall k :: 0 <= k < |g| ==> g[k].staging.vendorNumber == Some(key.vendorNumber)
    ensures forall k :: 0 <= k < |rows| && KeyOf(rows[k]) == Some(key) ==> rows[k] in g
    ensures forall x :: multiset(g)[x] == if KeyOf(x) == Some(key) then multiset(rows)[x] else 0
  {
    var hasKey := f => KeyOf(f) == Some(key);
    FilterMultiplicities(rows, hasKey);
    Filter(rows, hasKey)
  }

  /** The aggregates of one group: the distinct document numbers, the
      liability of its invoices (RE), of its payments (KZ), and of all its
      rows. Each SUM reads NULL as zero and is NULL only when no value is
      left. */
  function Totals(group: seq<FactRow>): (t: VendorTotals)
    ensures t.documentCount == |DocumentNumbers(group)|
    ensures t.documentCount <= |group|
    ensures t.totalInvoices.GetOr(0) == ZeroSum(Filter(group, IsInvoice), LiabilityColumn)
    ensures t.totalInvoices.None? <==> forall k :: 0 <= k < |group| ==> IsInvoice(group[k]) && group[k].vendorLiabilityAmount.None?
    ensures t.totalPayments.GetOr(0) == ZeroSum(Filter(group, IsPayment), LiabilityColumn)
    ensures t.totalPayments.None? <==> forall k :: 0 <= k < |group| ==> IsPayment(group[k]) && group[k].vendorLiabilityAmount.None?
    ensures t.netOpenAmount.GetOr(0) == ZeroSum(group, LiabilityColumn)
    ensures t.netOpenAmount.None? <==> forall k :: 0 <= k < |group| ==> group[k].vendorLiabilityAmount.None?
  {
    DistinctColumns(group);
    SumByIsZeroSum(group, InvoiceLiability);
    SumByIsZeroSum(group, PaymentLiability);
    SumByIsZeroSum(group, LiabilityColumn);
    ZeroSumFilter(group, LiabilityColumn, IsInvoice, InvoiceLiability);
    ZeroSumFilter(group, LiabilityColumn, IsPayment, PaymentLiability);
    VendorTotals(
      |Distinct(group, DocumentNumberColumn)|,
      SumBy(group, InvoiceLiability),
      SumBy(group, PaymentLiability),
      SumBy(group, LiabilityColumn))
  }

  /** `ap_vendor_summary`: one entry per distinct group key among the rows
      with a vendor number. */
  function VendorSummary(rows: seq<FactRow>): (r: map<VendorKey, VendorTotals>)
    ensures forall key :: key in r <==> exists k :: 0 <= k < |rows| && KeyOf(rows[k]) == Some(key)
    ensures forall key :: key in r ==> r[key] == Totals(GroupRows(rows, key)) && GroupRows(rows, key) != []
    ensures |r| <= |rows|
  {
    var keys := Distinct(rows, KeyOf);
    GroupsNotEmpty(rows, keys);
    SummaryOf(rows, keys)
  }

  /** The totals of the group of every key in `keys`. */
  function SummaryOf(rows: seq<FactRow>, keys: set<VendorKey>): (r: map<VendorKey, VendorTotals>)
    ensures r.Keys == keys
    ensures forall key :: key in r ==> r[key] == Totals(GroupRows(rows, key))
  {
    map key | key in keys :: Totals(GroupRows(rows, key))
  }

  /** The group of a key that occurs among the rows is not empty. */
  lemma {:induction false} GroupsNotEmpty(rows: seq<FactRow>, keys: set<VendorKey>)
    requires forall key :: key in keys ==> exists k :: 0 <= k < |rows| && KeyOf(rows[k]) == Some(key)
    ensures forall key :: key in keys ==> GroupRows(rows, key) != []
  {
    forall key | key in keys
      ensures GroupRows(rows, key) != []
    {
      var k :| 0 <= k < |rows| && KeyOf(rows[k]) == Some(key);
      assert rows[k] in GroupRows(rows, key);
    }
  }

  /** Every row with a vendor number is summarised under its own key, and
      its group is not empty; a row without one is in no group. */
  lemma {:induction false} VendorSummaryCoverage(rows: seq<FactRow>, k: nat)
    requires k < |rows|
    ensures rows[k].staging.vendorNumber.Some? ==>
      var key := KeyOf(rows[k]).value;
      key in VendorSummary(rows) && rows[k] in GroupRows(rows, key)
    ensures rows[k].staging.vendorNumber.None? ==>
      forall key :: rows[k] !in GroupRows(rows, key)
  {
  }

  /** Per vendor, the net open amount is the invoice total, plus the payment
      total, plus the liability of the vendor's other document types (NULLs
      read as zero). */
  lemma {:induction false} NetOpenSplit(rows: seq<FactRow>, key: VendorKey)
    requires key in VendorSummary(rows)
    ensures var t := VendorSummary(rows)[key]; var g := GroupRows(rows, key);
      t.netOpenAmount.GetOr(0) == t.totalInvoices.GetOr(0) + t.totalPayments.GetOr(0) + ZeroSum(g, OtherLiability)
  {
    assert VendorSummary(rows)[key] == Totals(GroupRows(rows, key));
    TotalsSplit(GroupRows(rows, key));
  }

  lemma {:induction false} TotalsSplit(g: seq<FactRow>)
    ensures var t := Totals(g);
      t.netOpenAmount.GetOr(0) == t.totalInvoices.GetOr(0) + t.totalPayments.GetOr(0) + ZeroSum(g, OtherLiability)
  {
    SumByIsZeroSum(g, InvoiceLiability);
    SumByIsZeroSum(g, PaymentLiability);
    SumByIsZeroSum(g, LiabilityColumn);
    forall k | 0 <= k < |g|
      ensures LiabilityColumn(g[k]).GetOr(0)
        == InvoiceLiability(g[k]).GetOr(0) + PaymentLiability(g[k]).GetOr(0) + OtherLiability(g[k]).GetOr(0)
    {
      LiabilityParts(g[k]);
    }
    ZeroSumSplit(g, LiabilityColumn, InvoiceLiability, PaymentLiability, OtherLiability);
  }

  /** Each row's liability lands in exactly one of the invoice, payment and
      other parts. */
  lemma LiabilityParts(f: FactRow)
    ensures LiabilityColumn(f).GetOr(0) == InvoiceLiability(f).GetOr(0) + PaymentLiability(f).GetOr(0) + OtherLiability(f).GetOr(0)
  {
  }
}
